=== FILE: README.md ===
# EvenSense server: the validate-then-persist handlers, in Dafny

This project models the request handlers of a small REST backend. The backend stores four kinds of software-project metadata: projects, architecture notes, reference links and team members. Every handler runs one fixed chain of guards:

- is there a body;
- are the required fields truthy;
- is the id shaped like a storage identifier;
- does the record, or the project it refers to, exist;
- is a uniqueness rule respected.

The chain ends in at most one change to one collection and one response (a status code and a JSON body). The model covers:

- **Storage** (`tables.dfy`). Each collection is a sequence of documents in insertion order. Each document has an `_id`, schema fields and `createdAt`/`updatedAt` stamps. `findById`, `findByIdAndDelete` and `findByIdAndUpdate` are functions on that sequence. The identifier-shape check `ObjectId.isValid` is left uninterpreted: it is a function value that every theorem quantifies over.
- **Schemas** (`schema.dfy`, `*_model.dfy`). These model what the document layer does to a body before storing it: casts to String and ObjectId, the `required` and `enum` validators, defaults, the unique index on project names, and update semantics (given paths replace, others stay, unknown keys are dropped).
- **The store** (`store.dfy`). A `Database` class holds the four collections. Its invariant `Valid()` says identifiers are unique and well-formed, every stored document satisfies its schema, and project names are distinct.
- **Handlers**:
  - each state-changing handler is a specification function from the collection before the request to the outcome and the collection after;
  - each also has a method on `Database`, proved to produce exactly that outcome and state and to keep `Valid()`;
  - read-only handlers are functions of the collections they query.
- **The error handler** (`error_handler.dfy`). It maps a thrown error to the logged record and to a `{ status: "error", message }` response.

A handler's outcome is one of three things:

- a response;
- an error raised out of the handler (the Link and TeamMember handlers run inside an asynchronous wrapper that forwards thrown errors);
- no response at all: the mounted Project edit and delete handlers are empty.

Clock readings and fresh identifiers are parameters (`now`, `newId`). A fresh identifier is required to be well-formed and unused.

Deleting a project leaves the architectures, links and team members that refer to it in place. No handler writes to a collection other than its own; the Link and TeamMember by-project handlers also read the projects collection.

The TeamMember and Link handlers repeat each other's shape: the by-project filter and the delete handler differ only in names and messages, and the model keeps them as two definitions because the source has two handlers.

The read-by-project handlers differ in where their 404 comes from:

- the architecture read-by-project handler never looks up the project; its 404 means no architecture refers to the id;
- the link and team member read-by-project handlers look up the project first; their 404 means no project has the id, and a project without links or members is answered 200 with an empty list.

## Model

| member | source | states |
|---|---|---|
| ProjectController.CreateSpec | src/controllers/project/index.ts:11-31 | Absent/empty body gives 400 "Body is required"; a falsy name, deadline or description gives 400 "Missing fields in the body"; a name already stored gives 400 "Project name must be unique"; every refusal leaves the collection unchanged; past these guards, a schema failure of the three fields gives 400 with the error's message, and 201 is answered exactly when they pass the schema; success appends exactly one record built from name, deadline and description with the default status, stamped `now`, and answers 201 with it |
| ProjectController.CreateProject | src/controllers/project/index.ts:11-31 | The store method does exactly what `CreateSpec` says and keeps the store invariant |
| ProjectController.ViewProject | src/controllers/project/index.ts:39-44 | Always 200; the "No projects found" message exactly when the collection is empty, otherwise every record in stored order |
| ProjectController.GetProjectById | src/controllers/project/index.ts:56-65 | Malformed id gives 400 "Invalid project ID", absent id 404 "Project not found"; 200 exactly when the id is well-formed and stored, with the stored record of that id |
| ProjectController.EditSpec | src/controllers/project/index.ts:78-105 | Empty body first (400), then malformed id (400), then absent id (404); for a stored id and a non-empty body, a validation failure gives 400 with its message, a name held by another project gives 400 with the duplicate-key message, and 200 is answered exactly when neither happens; every refusal changes nothing; success replaces only the record with that id, with the update applied path by path, `createdAt` kept and `updatedAt` = now, and answers 200 "Project updated successfully" with it |
| ProjectController.EditProject | src/controllers/project/index.ts:78-105 | The store method does exactly what `EditSpec` says and keeps the store invariant |
| ProjectController.DeleteSpec | src/controllers/project/index.ts:112-126 | No shape check: a malformed id fails the cast inside `findById` and gives 400 with the cast message; absent id gives 404; otherwise exactly that record is removed and 200 carries the pre-delete record as `deletedProject` |
| ProjectController.DeleteProject | src/controllers/project/index.ts:112-126 | The store method does exactly what `DeleteSpec` says and keeps the store invariant |
| ProjectController.CreateKeepsConsistent | src/controllers/project/index.ts:22-28 | A create keeps ids unique and well-formed, every record schema-valid and names distinct |
| ProjectController.EditKeepsConsistent | src/controllers/project/index.ts:94-97 | An edit keeps the collection consistent; the unique index keeps names distinct |
| ProjectController.DeleteKeepsConsistent | src/controllers/project/index.ts:119 | A delete keeps the collection consistent |
| ProjectController.SecondCreateWithSameNameIsRefused | src/controllers/project/index.ts:22-25 | Two creates with the same body: the first answers 201, the second 400 "Project name must be unique" |
| ProjectController.CreateIgnoresOtherKeys | src/controllers/project/index.ts:15-27 | Bodies that agree on name, deadline and description give the same outcome and collection, so a `status` in the body is ignored |
| ProjectController.CreateReadDelete | src/controllers/project/index.ts:61-65 | A created project is read back by its id unchanged, deleting it returns that record, and reading it afterwards gives 404 |
| ProjectController.DeleteTwice | src/controllers/project/index.ts:115-119 | A successful delete followed by a delete of the same id gives 404 |
| ProjectController.EditChecksBodyFirst | src/controllers/project/index.ts:78-86 | With a malformed id, an absent or empty body is still answered "Request body cannot be empty" |
| ProjectController.CreateThenDuplicate | src/controllers/project/index.ts:11-31 | Two identical creates with a fresh name, a non-empty description and a deadline: the first answers 201 and appends the project with the default status, the second answers 400 "Project name must be unique" |
| ProjectController.RenameIsApplied | src/controllers/project/index.ts:78-105 | Renaming a stored project to a non-empty name no other project holds answers 200 "Project updated successfully" and changes only that project's name and `updatedAt` |
| ProjectController.RenameToTakenNameIsRefused | src/controllers/project/index.ts:94-105 | Renaming to a name another project holds answers 400 and leaves the collection unchanged |
| MountedProjectController.CreateProject | src/controllers/project.controller.ts:4-31 | The mounted create has the same guards, messages and effect as `ProjectController.CreateSpec` |
| MountedProjectController.ViewProject | src/controllers/project.controller.ts:33-43 | The mounted listing equals `ProjectController.ViewProject`: always 200, a message exactly when empty |
| MountedProjectController.EditProject | src/controllers/project.controller.ts:45 | Produces no response and, having no frame, changes nothing |
| MountedProjectController.DeleteProject | src/controllers/project.controller.ts:47 | Produces no response and, having no frame, changes nothing |
| ArchitectureController.CreateSpec | src/controllers/architecture/index.ts:7-26 | Empty body gives 400 "No body provided"; a falsy name, description or ofProject gives 400 "Missing required fields"; an ofProject that does not cast to an identifier gives 400 with the cast message; an existing architecture for that project gives 400 "Architecture already exists for this project"; otherwise a schema failure gives 400 with its message, and 201 is answered exactly when none of these refusals applies; refusals change nothing; success appends one record built from the whole body, with no earlier architecture for its project, and answers 201 with it |
| ArchitectureController.CreateArchitecture | src/controllers/architecture/index.ts:7-26 | The store method does exactly what `CreateSpec` says and keeps the store invariant |
| ArchitectureController.DeleteSpec | src/controllers/architecture/index.ts:31-44 | Malformed id gives 400, absent id 404, otherwise exactly that record is removed with 200 "Architecture deleted successfully" |
| ArchitectureController.DeleteArchitecture | src/controllers/architecture/index.ts:31-44 | The store method does exactly what `DeleteSpec` says and keeps the store invariant |
| ArchitectureController.GetAllArchitectures | src/controllers/architecture/index.ts:49-55 | Always 200; every record when there is one, the "No Architectures found" message exactly when empty |
| ArchitectureController.GetProjectArchitecture | src/controllers/architecture/index.ts:63-72 | Malformed id gives 400; 404 exactly when no architecture refers to the id; 200 exactly when the id is well-formed and some architecture refers to it; otherwise an architecture of that project, the only one while at most one per project is stored; the projects collection is not an input |
| ArchitectureController.UpdateSpec | src/controllers/architecture/index.ts:78-105 | Malformed id gives 400, absent id 404, no body check; for a stored id, a validation failure gives 400 with its message and no change, and 200 is answered exactly when the update passes validation; success replaces only that record with the update applied, `updatedAt` = now, and answers 200 with it |
| ArchitectureController.UpdateArchitecture | src/controllers/architecture/index.ts:78-105 | The store method does exactly what `UpdateSpec` says and keeps the store invariant |
| ArchitectureController.CreateKeepsConsistent | src/controllers/architecture/index.ts:22-23 | A create keeps the collection consistent |
| ArchitectureController.UpdateKeepsConsistent | src/controllers/architecture/index.ts:91-96 | An update keeps the collection consistent |
| ArchitectureController.DeleteKeepsConsistent | src/controllers/architecture/index.ts:40 | A delete keeps the collection consistent |
| ArchitectureController.CreateKeepsOnePerProject | src/controllers/architecture/index.ts:17-23 | Creates keep at most one architecture per project |
| ArchitectureController.SecondCreateForSameProjectIsRefused | src/controllers/architecture/index.ts:17-20 | After a successful create, a create naming the same project is refused with "Architecture already exists for this project" |
| ArchitectureController.CreateThenReadByProject | src/controllers/architecture/index.ts:68-72 | A created architecture is what reading its project's architecture returns |
| ArchitectureController.UpdateCanBreakOnePerProject | src/controllers/architecture/index.ts:91-96 | An update that points an architecture at a project that already has one is accepted and leaves two: the one-per-project rule is the create guard's alone |
| ArchitectureController.DeleteTwice | src/controllers/architecture/index.ts:36-40 | A second delete of the same id gives 404 |
| LinkController.CreateSpec | src/controllers/link/index.ts:8-21 | Absent body raises the `Object.entries` error; empty body gives 400 "Request body cannot be empty"; a falsy name, ofProject, type or url gives 400 "Missing required fields"; past these guards, a schema failure is raised with no status and a valid body is answered 201; success appends one record built from the whole body and answers 201 with the record itself |
| LinkController.CreateLink | src/controllers/link/index.ts:8-21 | The store method does exactly what `CreateSpec` says and keeps the store invariant |
| LinkController.DeleteSpec | src/controllers/link/index.ts:24-35 | Malformed id gives 400 "Invalid link ID", absent id 404 "Link not found", otherwise exactly that link is removed with 200 |
| LinkController.DeleteLink | src/controllers/link/index.ts:24-35 | The store method does exactly what `DeleteSpec` says and keeps the store invariant |
| LinkController.UpdateSpec | src/controllers/link/index.ts:79-98 | Id shape (400), then existence (404), then empty body (400); for a stored id and a non-empty body, a schema failure is raised with no status and a valid update answers 200; success replaces only that link with the body applied and answers 200 "Link updated successfully" with it as `data` |
| LinkController.UpdateLink | src/controllers/link/index.ts:79-98 | The store method does exactly what `UpdateSpec` says and keeps the store invariant |
| LinkController.LinksOf | src/controllers/link/index.ts:49 | Exactly the links whose ofProject is the id |
| LinkController.LinksOfCounts | src/controllers/link/index.ts:49 | Each link of the project is listed exactly as many times as it is stored (once, while ids are unique), and no other link is listed |
| LinkController.LinksOfAppend | src/controllers/link/index.ts:49 | Filtering a concatenation is concatenating the filtered parts, so the links come in stored order |
| LinkController.LinksOfKind | src/controllers/link/index.ts:74 | Exactly the links with that ofProject and that type |
| LinkController.LinksOfKindCounts | src/controllers/link/index.ts:74 | Each link of the project and type is listed exactly as many times as it is stored, and no other link is listed |
| LinkController.WithKind | src/controllers/link/index.ts:74 | Exactly the links of that type |
| LinkController.WithKindCounts | src/controllers/link/index.ts:74 | Each link of the type is kept exactly as many times as it occurs, and no other link is kept |
| LinkController.WithKindAppend | src/controllers/link/index.ts:74 | The type filter distributes over concatenation |
| LinkController.LinksOfKindIsProjectLinksOfKind | src/controllers/link/index.ts:74 | Filtering by project and type at once equals filtering the project's links by type, order included |
| LinkController.GetProjectLinks | src/controllers/link/index.ts:39-50 | Malformed id gives 400 "Invalid link ID", an id naming no project 404 "Link Project not found"; otherwise 200 with exactly the links of that project, in stored order |
| LinkController.GetLinksByType | src/controllers/link/index.ts:54-75 | Checks id shape, project existence, presence of `type` ("Missing Query <type>") and its membership in deploy/dev/doc ("Invalid Query <type> ") in that order; 200 exactly when all pass, with the project's links of that type in stored order |
| LinkController.ByTypeIsProjectLinksOfType | src/controllers/link/index.ts:74-75 | The by-type answer is the project's links filtered by type, so a sub-list of the project-links answer |
| LinkController.CreateKeepsConsistent | src/controllers/link/index.ts:19-20 | A create keeps the collection consistent |
| LinkController.UpdateKeepsConsistent | src/controllers/link/index.ts:94-97 | An update keeps the collection consistent |
| LinkController.DeleteKeepsConsistent | src/controllers/link/index.ts:34 | A delete keeps the collection consistent |
| LinkController.CreateThenListed | src/controllers/link/index.ts:19-20 | A created link appears in its project's link list |
| LinkController.RepeatedCreateIsAccepted | src/controllers/link/index.ts:19-20 | No uniqueness: the same body is accepted twice and both links are stored |
| LinkController.RaisedFaultsAre500 | src/controllers/link/index.ts:8 | Any error a Link create or update raises reaches the client as 500 with its own message |
| TeamMemberController.CreateSpec | src/controllers/teamMember/index.ts:11-24 | Empty or absent body gives 400; a falsy name, ofProject or role gives 400 "Missing required fields"; past these guards, a schema failure is raised with no status and a valid body is answered 201; success appends one record and answers 201 "Team member created successfully" with it as `data` |
| TeamMemberController.CreateTeamMember | src/controllers/teamMember/index.ts:11-24 | The store method does exactly what `CreateSpec` says and keeps the store invariant |
| TeamMemberController.DeleteSpec | src/controllers/teamMember/index.ts:28-41 | Malformed id gives 400 "Invalid TeamMember ID", absent id 404 "TeamMember not found", otherwise exactly that record is removed with 200 |
| TeamMemberController.DeleteTeamMember | src/controllers/teamMember/index.ts:28-41 | The store method does exactly what `DeleteSpec` says and keeps the store invariant |
| TeamMemberController.UpdateSpec | src/controllers/teamMember/index.ts:73-92 | Malformed id gives 400, absent id 404, no body check; for a stored id, a schema failure is raised with no status and a valid update answers 200; success replaces only that member with the body applied (paths not in the body keep their values) and answers 200 "TeamMember was updated" |
| TeamMemberController.UpdateTeamMember | src/controllers/teamMember/index.ts:73-92 | The store method does exactly what `UpdateSpec` says and keeps the store invariant |
| TeamMemberController.MembersOf | src/controllers/teamMember/index.ts:55 | Exactly the members whose ofProject is the id |
| TeamMemberController.MembersOfCounts | src/controllers/teamMember/index.ts:55 | Each member of the project is listed exactly as many times as it is stored (once, while ids are unique), and no other member is listed |
| TeamMemberController.MembersOfAppend | src/controllers/teamMember/index.ts:55 | Filtering a concatenation is concatenating the filtered parts, so the members come in stored order |
| TeamMemberController.GetProjectTeamMembers | src/controllers/teamMember/index.ts:45-56 | Malformed id gives 400 "Invalid Project ID", an id naming no project 404 "Project not found"; otherwise 200 with exactly that project's members in stored order, possibly none |
| TeamMemberController.GetTeamMemberById | src/controllers/teamMember/index.ts:60-69 | Malformed id gives 400, absent id 404; 200 exactly when stored, with the record of that id |
| TeamMemberController.CreateKeepsConsistent | src/controllers/teamMember/index.ts:20 | A create keeps the collection consistent |
| TeamMemberController.UpdateKeepsConsistent | src/controllers/teamMember/index.ts:84-87 | An update keeps the collection consistent |
| TeamMemberController.DeleteKeepsConsistent | src/controllers/teamMember/index.ts:38 | A delete keeps the collection consistent |
| TeamMemberController.CreateThenRead | src/controllers/teamMember/index.ts:20-24 | A created member is read back by its id and listed with its project's members |
| TeamMemberController.EmptyUpdateOnlyTouchesTimestamp | src/controllers/teamMember/index.ts:83-92 | An update with no body answers 200 and changes only `updatedAt` |
| TeamMemberController.RepeatedCreateIsAccepted | src/controllers/teamMember/index.ts:20-24 | No uniqueness: the same member can be created twice |
| TeamMemberController.DeleteTwice | src/controllers/teamMember/index.ts:33-38 | A second delete of the same id gives 404 |
| TeamMemberController.RaisedFaultsAre500 | src/controllers/teamMember/index.ts:8 | Any error a TeamMember create or update raises reaches the client as 500 with its own message |
| ProjectModel.Build | src/models/project.model.ts:13-35 | A built project satisfies every validator; name, deadline and description come from the body; status is "active" when not given; a missing required path is an error; a body is accepted exactly when name and description cast to non-empty text, deadline is neither null nor empty, and status, when given, casts to one of the enum names |
| ProjectModel.Apply | src/models/project.model.ts:15-32 | Paths in the update replace the stored value, all others keep theirs, validity is preserved, and an update naming no schema path changes nothing; an update is accepted exactly when every schema path it names passes that path's validator |
| ProjectModel.StatusOf | src/models/project.model.ts:28-32 | A status is accepted exactly when its text is one of active, inactive, completed |
| ProjectModel.StatusRoundTrip | src/models/project.model.ts:28-32 | Every status has a name in the enum list that reads back as itself |
| ProjectModel.ApplyIdempotent | src/models/project.model.ts:13-35 | Applying the same accepted update twice gives what applying it once gave |
| ProjectModel.FullUpdateIsBuild | src/models/project.model.ts:13-35 | An update naming every path gives the record a create from that body would give |
| ArchitectureModel.Build | src/models/architecture.model.ts:9-24 | A built architecture satisfies its validators; name and description come from the body; ofProject is the given identifier or unset; a body is accepted exactly when name and description cast to non-empty text and ofProject, when given, is null or a well-formed identifier |
| ArchitectureModel.Apply | src/models/architecture.model.ts:9-24 | Given paths replace, others are kept, validity is preserved; a null ofProject clears the reference; an update is accepted exactly when every named path passes its validator, ofProject being null or a well-formed identifier |
| ArchitectureModel.ProjectIsOptional | src/models/architecture.model.ts:19-21 | A body with only name and description builds a record with no project |
| ArchitectureModel.FirstOfProject | src/controllers/architecture/index.ts:17 | Finds an architecture of that project exactly when one is stored |
| LinkModel.Build | src/models/link.model.ts:10-32 | A built link satisfies its validators; every path comes from the body; a missing path is an error; a body is accepted exactly when name and url cast to non-empty text, type casts to doc, deploy or dev, and ofProject is a well-formed identifier |
| LinkModel.Apply | src/models/link.model.ts:10-32 | Given paths replace, others are kept, validity is preserved; an update is accepted exactly when every schema path it names passes that path's validator |
| LinkModel.KindOf | src/models/link.model.ts:20-24 | A type is accepted exactly when its text is one of doc, deploy, dev |
| TeamMemberModel.Build | src/models/teamMember.model.ts:16-43 | A built member satisfies its validators; every path comes from the body; a missing path is an error; a body is accepted exactly when name casts to non-empty text, role to one of the role names, and ofProject is a well-formed identifier |
| TeamMemberModel.Apply | src/models/teamMember.model.ts:16-43 | Given paths replace, others are kept, validity is preserved; an update is accepted exactly when every schema path it names passes that path's validator |
| TeamMemberModel.RoleOf | src/models/teamMember.model.ts:22-33 | A role is accepted exactly when its text is one of the six role names |
| GlobalErrorHandler.Handle | src/utils/globalErrorHandler.ts:15-28 | The status is the error's when it has one, else 500; the message is the error's when non-empty, else "Internal Server Error"; the body's status field is "error"; the log record carries the same status and message as the response |
| GlobalErrorHandler.UnclassifiedFaultIs500 | src/utils/globalErrorHandler.ts:25-28 | An error without a status reaches the client as 500 with its own message |
| Tables.FindById | src/controllers/project/index.ts:61 | Finds a document exactly when one has the id, and while ids are unique it is that one |
| Tables.DeleteById | src/controllers/project/index.ts:119 | Removes exactly the document with the id and keeps every other; nothing changes when the id is absent |
| Tables.UpdateById | src/controllers/project/index.ts:94-97 | Replaces exactly the document with the id, keeps every other and the length |
| Tables.InsertKeyed | src/controllers/project/index.ts:27 | Appending a fresh well-formed id keeps ids unique and makes the document findable |

## Left out

- The asynchronous wrapper used by the Link and TeamMember handlers is not part of this model. It is taken to pass every thrown error to the global error handler, which is how `RaisedFaultsAre500` connects the two.
- Database and connection faults (a lost connection, a timeout) are not modelled. Only errors the document layer raises from the request's own data are modelled.
- Concurrency: every request is atomic and sequential. The read-then-write races in the duplicate-name and one-architecture-per-project checks are out of scope.
- Express routing and wiring are out of scope. The router mounts only the project routes. The project route file imports a `GetProjectById` that the mounted controller does not export.
- src/models/tech.model.ts is not part of this model: no handler uses it.
- The error log's timestamp and its console output are not modelled. The time formatting is I/O.
- Error-response and id-check helpers are folded into the response constructor and the `isValidId` parameter.
- Schema.MessageOf: the texts of validation, cast and duplicate-key errors are shortened. They name the failing path and value, not mongoose's exact wording. Only the first failing path is reported.
- Schema.AsString: JSON numbers are integers. Fractional numbers and their text form are not modelled.
- Schema.RequiredDate: the Date cast is not modelled. Any value other than `null` or `""` is accepted as a deadline and stored as sent.
- Schema.ObjectIdCast: only strings accepted by `isValidId` cast to an ObjectId. Numbers and ObjectId objects are not modelled. Ids are compared as text, so two spellings of one ObjectId (hex case) count as different.
- ProjectModel.StatusOf: a `status` of `null` in an update is rejected by the enum validator.
- ProjectController.NameInUse: a `name` that is an array or an object is taken to match no project. Mongoose would turn it into an `$in` or operator query. Query operators in bodies are not modelled anywhere.
- Bodies that name `_id`, `createdAt` or `updatedAt` are not modelled, for creates as well as updates: such keys are dropped like any non-schema key. The Architecture, Link and TeamMember creates pass the whole body to the document layer, which would store a client-supplied `_id` (and refuse a repeated one on the `_id` index); the model always gives the new record the fresh identifier `newId`.
- Update operators (`$set`, `$unset`) in an update body are not modelled; they are dropped like any non-schema key.
- LinkController.GetLinksByType: the `type` query parameter is a single optional text. A repeated parameter (`?type=doc&type=dev`), which arrives as an array and is answered 400 "Invalid Query <type> " (src/controllers/link/index.ts:69-71), cannot be expressed.
- TeamMemberController.UpdateSpec: the update query is given the found member's identifier value itself as its filter (src/controllers/teamMember/index.ts:84), not a `{ _id }` filter object. The model assumes this selects the member with that id. How the document layer reads a bare identifier as a filter is not part of this model: it could also select no document (answering 200 with null data) or the first member of the collection.
- ArchitectureController.UpdateSpec: the "Failed to update architecture" answer is not modelled. It needs the record to vanish between the existence check and the update, which sequential requests cannot do.
- LinkController.CreateSpec: the absent body (as opposed to an empty one) is modelled as `None`. Whether the JSON parser ever leaves the body undefined depends on the framework version.

=== FILE: architecture_controller.dfy ===
/**
  The Architecture handlers: create (at most one per project, checked before
  the insert), delete, list, read by project and update. Errors the document
  layer throws are caught and answered with status 400 and their message.
*/
module ArchitectureController {
  import opened Wrappers
  import opened Json
  import opened Tables
  import opened Schema
  import opened ArchitectureModel
  import opened Http
  import opened Store

  /** `!name || !description || !ofProject`. */
  predicate MissingFields(b: Body)
  {
    !Has(b, "name") || !Has(b, "description") || !Has(b, "ofProject")
  }

  /** `createArchitecture`: the whole body goes to `Architecture.create`. */
  function CreateSpec(t: Table<Architecture>, isValidId: Id -> bool, body: Option<Body>, newId: Id, now: Time): (out: Step<Architecture>)
    ensures out.outcome.Sent? && out.outcome.response.status in {201, 400}
    ensures out.outcome.response.status == 400 ==> out.table == t && out.outcome.response.body.Message?
    ensures NoBody(body) ==> out.outcome == Reply(400, "No body provided")
    ensures !NoBody(body) && MissingFields(body.value) ==> out.outcome == Reply(400, "Missing required fields")
    ensures !NoBody(body) && !MissingFields(body.value) ==>
      var cast := ObjectIdCast("ofProject", body.value["ofProject"], isValidId);
      var built := Build(body.value, isValidId);
      && (cast.Err? ==> out.outcome == Reply(400, MessageOf(cast.error)))
      && (cast.Ok? && FirstOfProject(t, cast.value).Some? ==>
            out.outcome == Reply(400, "Architecture already exists for this project"))
      && (cast.Ok? && FirstOfProject(t, cast.value).None? && built.Err? ==>
            out.outcome == Reply(400, MessageOf(built.error)))
      && (out.outcome.response.status == 201 <==> cast.Ok? && FirstOfProject(t, cast.value).None? && built.Ok?)
    ensures out.outcome.response.status == 201 ==>
      && body.Some? && !MissingFields(body.value)
      && |out.table| == |t| + 1 && out.table[..|t|] == t
      && var d := out.table[|t|];
      && out.outcome.response.body == Document(ArchitectureRecord(d))
      && d.id == newId && d.createdAt == now && d.updatedAt == now
      && Build(body.value, isValidId) == Ok(d.fields)
      && body.value["ofProject"] == Str(d.fields.ofProject.value)
      && FirstOfProject(t, d.fields.ofProject.value).None?
  {
    if NoBody(body) then Step(Reply(400, "No body provided"), t)
    else if MissingFields(body.value) then Step(Reply(400, "Missing required fields"), t)
    else match ObjectIdCast("ofProject", body.value["ofProject"], isValidId)
      case Err(e) => Step(Reply(400, MessageOf(e)), t)
      case Ok(pid) =>
        if FirstOfProject(t, pid).Some? then Step(Reply(400, "Architecture already exists for this project"), t)
        else match Build(body.value, isValidId)
          case Err(e) => Step(Reply(400, MessageOf(e)), t)
          case Ok(a) =>
            var d := Doc(newId, a, now, now);
            Step(Sent(Response(201, Document(ArchitectureRecord(d)))), t + [d])
  }

  /** `deleteArchitecture`. */
  function DeleteSpec(t: Table<Architecture>, isValidId: Id -> bool, id: Id): (out: Step<Architecture>)
    ensures out.outcome.Sent?
    ensures !isValidId(id) ==> out == Step(Reply(400, "Invalid architecture ID"), t)
    ensures isValidId(id) && !HasId(t, id) ==> out == Step(Reply(404, "Architecture not found"), t)
    ensures isValidId(id) && HasId(t, id) ==>
      out == Step(Reply(200, "Architecture deleted successfully"), DeleteById(t, id))
  {
    if !isValidId(id) then Step(Reply(400, "Invalid architecture ID"), t)
    else if !HasId(t, id) then Step(Reply(404, "Architecture not found"), t)
    else Step(Reply(200, "Architecture deleted successfully"), DeleteById(t, id))
  }

  /** `getAllArchitectures`. */
  function GetAllArchitectures(t: Table<Architecture>): (r: Response)
    ensures r.status == 200
    ensures r.body == Message("No Architectures found") <==> |t| == 0
    ensures |t| > 0 ==>
      && r.body.Documents? && |r.body.records| == |t|
      && forall i :: 0 <= i < |t| ==> r.body.records[i] == ArchitectureRecord(t[i])
  {
    if |t| > 0 then Response(200, Documents(ArchitectureRecords(t)))
    else Response(200, Message("No Architectures found"))
  }

  /** `getProjectArchitecture`: the first architecture of the project; the project itself is not looked up. */
  function GetProjectArchitecture(t: Table<Architecture>, isValidId: Id -> bool, id: Id): (r: Response)
    ensures !isValidId(id) ==> r == Response(400, Message("Invalid project ID"))
    ensures r.status == 404 <==> isValidId(id) && forall i :: 0 <= i < |t| ==> t[i].fields.ofProject != Some(id)
    ensures r.status == 404 ==> r.body == Message("Architecture not found for this project")
    ensures r.status == 200 <==> isValidId(id) && exists i :: 0 <= i < |t| && t[i].fields.ofProject == Some(id)
    ensures r.status == 200 ==>
      && r.body.Document? && r.body.record.ArchitectureRecord?
      && var d := r.body.record.architecture;
      && d in t && d.fields.ofProject == Some(id)
      && (OnePerProject(t) ==> forall i :: 0 <= i < |t| && t[i].fields.ofProject == Some(id) ==> t[i] == d)
  {
    if !isValidId(id) then Response(400, Message("Invalid project ID"))
    else match FirstOfProject(t, id)
      case None => Response(404, Message("Architecture not found for this project"))
      case Some(d) => Response(200, Document(ArchitectureRecord(d)))
  }

  /**
    `updateArchitecture`: the body is not checked; an absent or empty body is
    an empty update, which still refreshes `updatedAt`.
  */
  function UpdateSpec(t: Table<Architecture>, isValidId: Id -> bool, id: Id, body: Option<Body>, now: Time): (out: Step<Architecture>)
    ensures out.outcome.Sent? && out.outcome.response.status in {200, 400, 404}
    ensures out.outcome.response.status != 200 ==> out.table == t && out.outcome.response.body.Message?
    ensures !isValidId(id) ==> out.outcome == Reply(400, "Invalid architecture ID")
    ensures isValidId(id) && !HasId(t, id) ==> out.outcome == Reply(404, "Architecture not found")
    ensures isValidId(id) && HasId(t, id) ==>
      var applied := Apply(FindById(t, id).value.fields, UpdateOf(body), isValidId);
      && (applied.Err? ==> out.outcome == Reply(400, MessageOf(applied.error)))
      && (out.outcome.response.status == 200 <==> applied.Ok?)
    ensures out.outcome.response.status == 200 ==>
      && isValidId(id) && HasId(t, id)
      && var old_ := FindById(t, id).value;
      && out.outcome.response.body.Document? && out.outcome.response.body.record.ArchitectureRecord?
      && var d := out.outcome.response.body.record.architecture;
      && d.id == id && d.createdAt == old_.createdAt && d.updatedAt == now
      && Apply(old_.fields, UpdateOf(body), isValidId) == Ok(d.fields)
      && out.table == UpdateById(t, id, d)
  {
    if !isValidId(id) then Step(Reply(400, "Invalid architecture ID"), t)
    else match FindById(t, id)
      case None => Step(Reply(404, "Architecture not found"), t)
      case Some(current) =>
        match Apply(current.fields, UpdateOf(body), isValidId)
        case Err(e) => Step(Reply(400, MessageOf(e)), t)
        case Ok(a) =>
          var d := current.(fields := a, updatedAt := now);
          Step(Sent(Response(200, Document(ArchitectureRecord(d)))), UpdateById(t, id, d))
  }

  lemma CreateKeepsConsistent(t: Table<Architecture>, isValidId: Id -> bool, body: Option<Body>, newId: Id, now: Time)
    requires Consistent(t, isValidId) && isValidId(newId) && !HasId(t, newId)
    ensures Consistent(CreateSpec(t, isValidId, body, newId, now).table, isValidId)
  {
    var out := CreateSpec(t, isValidId, body, newId, now);
    if out.outcome.response.status == 201 {
      var d := out.table[|t|];
      assert out.table == t + [d];
      InsertKeyed(t, d, isValidId);
    }
  }

  lemma UpdateKeepsConsistent(t: Table<Architecture>, isValidId: Id -> bool, id: Id, body: Option<Body>, now: Time)
    requires Consistent(t, isValidId)
    ensures Consistent(UpdateSpec(t, isValidId, id, body, now).table, isValidId)
  {
    var out := UpdateSpec(t, isValidId, id, body, now);
    if out.outcome.response.status == 200 {
      UpdateKeyed(t, id, out.outcome.response.body.record.architecture, isValidId);
    }
  }

  lemma DeleteKeepsConsistent(t: Table<Architecture>, isValidId: Id -> bool, id: Id)
    requires Consistent(t, isValidId)
    ensures Consistent(DeleteSpec(t, isValidId, id).table, isValidId)
  {
    DeleteKeyed(t, id, isValidId);
  }

  /** The pre-check on `ofProject` keeps at most one architecture per project across creates. */
  lemma CreateKeepsOnePerProject(t: Table<Architecture>, isValidId: Id -> bool, body: Option<Body>, newId: Id, now: Time)
    requires OnePerProject(t)
    ensures OnePerProject(CreateSpec(t, isValidId, body, newId, now).table)
  {
    var out := CreateSpec(t, isValidId, body, newId, now);
    if out.outcome.response.status == 201 {
      var d := out.table[|t|];
      var r := out.table;
      forall i, j | 0 <= i < j < |r| && r[i].fields.ofProject.Some?
        ensures r[i].fields.ofProject != r[j].fields.ofProject
      {
        if j == |t| {
          assert r[i] == t[i];
        } else {
          assert r[i] == t[i] && r[j] == t[j];
        }
      }
    }
  }

  /** A second architecture for the same project is refused. */
  lemma SecondCreateForSameProjectIsRefused(t: Table<Architecture>, isValidId: Id -> bool, b1: Body, b2: Body, id1: Id, id2: Id, now1: Time, now2: Time)
    requires CreateSpec(t, isValidId, Some(b1), id1, now1).outcome.response.status == 201
    requires !MissingFields(b2) && b2["ofProject"] == b1["ofProject"]
    ensures CreateSpec(CreateSpec(t, isValidId, Some(b1), id1, now1).table, isValidId, Some(b2), id2, now2).outcome
      == Reply(400, "Architecture already exists for this project")
  {
    var t1 := CreateSpec(t, isValidId, Some(b1), id1, now1).table;
    var d := t1[|t|];
    assert FirstOfProject(t1, d.fields.ofProject.value).Some?;
  }

  /** A created architecture is what reading its project's architecture returns. */
  lemma CreateThenReadByProject(t: Table<Architecture>, isValidId: Id -> bool, body: Option<Body>, newId: Id, now: Time)
    requires CreateSpec(t, isValidId, body, newId, now).outcome.response.status == 201
    ensures var out := CreateSpec(t, isValidId, body, newId, now);
      GetProjectArchitecture(out.table, isValidId, body.value["ofProject"].s) == Response(200, out.outcome.response.body)
  {
    var out := CreateSpec(t, isValidId, body, newId, now);
    var d := out.table[|t|];
    var pid := d.fields.ofProject.value;
    assert out.table == t + [d];
    forall i | 0 <= i < |t| ensures out.table[i].fields.ofProject != Some(pid) {
      assert out.table[i] == t[i];
    }
  }

  /**
    The one-per-project rule is not kept by updates: pointing an architecture
    at a project that already has one is accepted and leaves two.
  */
  lemma UpdateCanBreakOnePerProject(isValidId: Id -> bool, x: Id, y: Id, p: Id, q: Id, now: Time)
    requires isValidId(x) && isValidId(y) && isValidId(p) && x != y && p != q
    ensures var t := [Doc(x, Architecture("A", "first", Some(p)), now, now), Doc(y, Architecture("B", "second", Some(q)), now, now)];
      var out := UpdateSpec(t, isValidId, y, Some(map["ofProject" := Str(p)]), now);
      && OnePerProject(t)
      && out.outcome.response.status == 200
      && !OnePerProject(out.table)
  {
    var t := [Doc(x, Architecture("A", "first", Some(p)), now, now), Doc(y, Architecture("B", "second", Some(q)), now, now)];
    assert Position(t, y) == 1;
    var out := UpdateSpec(t, isValidId, y, Some(map["ofProject" := Str(p)]), now);
    assert Apply(t[1].fields, map["ofProject" := Str(p)], isValidId) == Ok(Architecture("B", "second", Some(p)));
    assert out.table[0] == t[0] && out.table[1].fields.ofProject == Some(p);
  }

  /** Deleting the same architecture twice: the second attempt finds nothing. */
  lemma DeleteTwice(t: Table<Architecture>, isValidId: Id -> bool, id: Id)
    requires Consistent(t, isValidId)
    requires DeleteSpec(t, isValidId, id).outcome.response.status == 200
    ensures DeleteSpec(DeleteSpec(t, isValidId, id).table, isValidId, id).outcome == Reply(404, "Architecture not found")
  {
  }

  /** `createArchitecture` on the store. */
  method CreateArchitecture(db: Database, body: Option<Body>, newId: Id, now: Time) returns (r: Outcome)
    requires db.Valid() && db.isValidId(newId) && !HasId(db.architectures, newId)
    modifies db`architectures
    ensures db.Valid()
    ensures Step(r, db.architectures) == CreateSpec(old(db.architectures), db.isValidId, body, newId, now)
  {
    CreateKeepsConsistent(db.architectures, db.isValidId, body, newId, now);
    if NoBody(body) {
      return Reply(400, "No body provided");
    }
    var b := body.value;
    if !Has(b, "name") || !Has(b, "description") || !Has(b, "ofProject") {
      return Reply(400, "Missing required fields");
    }
    var pid := ObjectIdCast("ofProject", b["ofProject"], db.isValidId);
    if pid.Err? {
      return Reply(400, MessageOf(pid.error));
    }
    if FirstOfProject(db.architectures, pid.value).Some? {
      return Reply(400, "Architecture already exists for this project");
    }
    var created := Build(b, db.isValidId);
    if created.Err? {
      return Reply(400, MessageOf(created.error));
    }
    var d := Doc(newId, created.value, now, now);
    db.architectures := db.architectures + [d];
    r := Sent(Response(201, Document(ArchitectureRecord(d))));
  }

  /** `deleteArchitecture` on the store. */
  method DeleteArchitecture(db: Database, id: Id) returns (r: Outcome)
    requires db.Valid()
    modifies db`architectures
    ensures db.Valid()
    ensures Step(r, db.architectures) == DeleteSpec(old(db.architectures), db.isValidId, id)
  {
    DeleteKeepsConsistent(db.architectures, db.isValidId, id);
    if !db.isValidId(id) {
      return Reply(400, "Invalid architecture ID");
    }
    if FindById(db.architectures, id).None? {
      return Reply(404, "Architecture not found");
    }
    db.architectures := DeleteById(db.architectures, id);
    r := Reply(200, "Architecture deleted successfully");
  }

  /** `updateArchitecture` on the store. */
  method UpdateArchitecture(db: Database, id: Id, body: Option<Body>, now: Time) returns (r: Outcome)
    requires db.Valid()
    modifies db`architectures
    ensures db.Valid()
    ensures Step(r, db.architectures) == UpdateSpec(old(db.architectures), db.isValidId, id, body, now)
  {
    UpdateKeepsConsistent(db.architectures, db.isValidId, id, body, now);
    if !db.isValidId(id) {
      return Reply(400, "Invalid architecture ID");
    }
    var found := FindById(db.architectures, id);
    if found.None? {
      return Reply(404, "Architecture not found");
    }
    var applied := Apply(found.value.fields, UpdateOf(body), db.isValidId);
    if applied.Err? {
      return Reply(400, MessageOf(applied.error));
    }
    var d := found.value.(fields := applied.value, updatedAt := now);
    db.architectures := UpdateById(db.architectures, id, d);
    r := Sent(Response(200, Document(ArchitectureRecord(d))));
  }
}

=== FILE: architecture_model.dfy ===
/**
  The Architecture schema: `name` and `description` (both required) and
  `ofProject`, an ObjectId that the schema neither requires nor ties to a
  Project, with automatic timestamps. There is no unique index.
*/
module ArchitectureModel {
  import opened Wrappers
  import opened Json
  import opened Tables
  import opened Schema

  datatype Architecture = Architecture(name: string, description: string, ofProject: Option<Id>)

  /** What the validators guarantee of every stored architecture. */
  ghost predicate Conforms(a: Architecture, isValidId: Id -> bool)
  {
    a.name != "" && a.description != "" && (a.ofProject.Some? ==> isValidId(a.ofProject.value))
  }

  /** The optional `ofProject` path: absent or `null` leaves it unset. */
  function ProjectRef(v: Option<Value>, isValidId: Id -> bool): (r: Result<Option<Id>, SchemaError>)
    ensures r.Ok? <==> v.None? || v.value.Null? || (v.value.Str? && isValidId(v.value.s))
    ensures r.Ok? && r.value.Some? ==> v.Some? && v.value == Str(r.value.value)
  {
    if v.None? || v.value.Null? then Ok(None)
    else var id :- ObjectIdCast("ofProject", v.value, isValidId); Ok(Some(id))
  }

  /** `Architecture.create(doc)`: keeps the schema paths of `doc`, cast and validated in schema order. */
  function Build(doc: Body, isValidId: Id -> bool): (r: Result<Architecture, SchemaError>)
    ensures r.Ok? ==> Conforms(r.value, isValidId)
    ensures r.Ok? ==> "name" in doc && AsString(doc["name"]) == Some(r.value.name)
    ensures r.Ok? ==> "description" in doc && AsString(doc["description"]) == Some(r.value.description)
    ensures r.Ok? && r.value.ofProject.Some? ==> "ofProject" in doc && doc["ofProject"] == Str(r.value.ofProject.value)
    ensures r.Ok? && r.value.ofProject.None? ==> "ofProject" !in doc || doc["ofProject"] == Null
    ensures "name" !in doc || "description" !in doc ==> r.Err?
    ensures r.Ok? <==>
      && "name" in doc && StringAccepted(doc["name"])
      && "description" in doc && StringAccepted(doc["description"])
      && ("ofProject" in doc ==> doc["ofProject"] == Null || IdAccepted(doc["ofProject"], isValidId))
  {
    var name :- RequiredString("name", Lookup(doc, "name"));
    var description :- RequiredString("description", Lookup(doc, "description"));
    var ofProject :- ProjectRef(Lookup(doc, "ofProject"), isValidId);
    Ok(Architecture(name, description, ofProject))
  }

  /**
    `findByIdAndUpdate(id, update, { strict: true, runValidators: true })`:
    the schema paths the update names are replaced, the others kept, other
    keys dropped.
  */
  function Apply(a: Architecture, update: Body, isValidId: Id -> bool): (r: Result<Architecture, SchemaError>)
    ensures r.Ok? && "name" in update ==> AsString(update["name"]) == Some(r.value.name)
    ensures r.Ok? && "name" !in update ==> r.value.name == a.name
    ensures r.Ok? && "description" in update ==> AsString(update["description"]) == Some(r.value.description)
    ensures r.Ok? && "description" !in update ==> r.value.description == a.description
    ensures r.Ok? && "ofProject" in update && update["ofProject"].Str? ==> r.value.ofProject == Some(update["ofProject"].s)
    ensures r.Ok? && "ofProject" in update && update["ofProject"] == Null ==> r.value.ofProject == None
    ensures r.Ok? && "ofProject" !in update ==> r.value.ofProject == a.ofProject
    ensures r.Ok? && Conforms(a, isValidId) ==> Conforms(r.value, isValidId)
    ensures (forall k :: k in update ==> k !in ["name", "description", "ofProject"]) ==> r == Ok(a)
    ensures r.Ok? <==>
      && ("name" in update ==> StringAccepted(update["name"]))
      && ("description" in update ==> StringAccepted(update["description"]))
      && ("ofProject" in update ==> update["ofProject"] == Null || IdAccepted(update["ofProject"], isValidId))
  {
    var name :- if "name" in update then RequiredString("name", Some(update["name"])) else Ok(a.name);
    var description :- if "description" in update then RequiredString("description", Some(update["description"])) else Ok(a.description);
    var ofProject :- if "ofProject" in update then ProjectRef(Some(update["ofProject"]), isValidId) else Ok(a.ofProject);
    Ok(Architecture(name, description, ofProject))
  }

  /** The schema does not require `ofProject`: a name and a description are enough to build a record. */
  lemma ProjectIsOptional(name: string, description: string, isValidId: Id -> bool)
    requires name != "" && description != ""
    ensures Build(map["name" := Str(name), "description" := Str(description)], isValidId)
      == Ok(Architecture(name, description, None))
  {
  }

  /** What holds of the architectures collection between requests. */
  ghost predicate Consistent(t: Table<Architecture>, isValidId: Id -> bool)
  {
    && Keyed(t, isValidId)
    && forall i :: 0 <= i < |t| ==> Conforms(t[i].fields, isValidId)
  }

  /** The first stored architecture whose `ofProject` is `pid`: `Architecture.findOne({ ofProject: pid })`. */
  function FirstOfProject(t: Table<Architecture>, pid: Id): (r: Option<Doc<Architecture>>)
    ensures r.Some? ==> r.value in t && r.value.fields.ofProject == Some(pid)
    ensures r.None? <==> forall i :: 0 <= i < |t| ==> t[i].fields.ofProject != Some(pid)
    ensures r.Some? ==> r.value == t[FirstIndexOfProject(t, pid)]
  {
    var k := FirstIndexOfProject(t, pid);
    if k < |t| then Some(t[k]) else None
  }

  /** The index of the first architecture of project `pid`, or `|t|`. */
  function FirstIndexOfProject(t: Table<Architecture>, pid: Id): (k: nat)
    ensures k <= |t|
    ensures forall i :: 0 <= i < k ==> t[i].fields.ofProject != Some(pid)
    ensures k < |t| ==> t[k].fields.ofProject == Some(pid)
  {
    if |t| == 0 then 0
    else if t[0].fields.ofProject == Some(pid) then 0
    else 1 + FirstIndexOfProject(t[1..], pid)
  }

  /** At most one stored architecture per project. */
  ghost predicate OnePerProject(t: Table<Architecture>)
  {
    forall i, j :: 0 <= i < j < |t| && t[i].fields.ofProject.Some? ==> t[i].fields.ofProject != t[j].fields.ofProject
  }
}

=== FILE: error_handler.dfy ===
/**
  The application's last error middleware: it turns a thrown error into a
  log record and a `{ status: "error", message }` response.
*/
module GlobalErrorHandler {
  import opened Http

  /** The record written to the server log; its timestamp is not modelled. */
  datatype ErrorLog = ErrorLog(url: string, origin: string, status: int, message: string)

  const FallbackStatus: int := 500
  const FallbackMessage: string := "Internal Server Error"

  /**
    `globalErrorHandler(err, req, res, next)` for a request to `url` from
    client agent `userAgent`: the log record and the response.
  */
  function Handle(err: Fault, url: string, userAgent: string): (out: (ErrorLog, Response))
    ensures out.1.body.StatusReport? && out.1.body.status == "error"
    ensures out.1.status == (if err.status != 0 then err.status else FallbackStatus)
    ensures out.1.body.message == (if err.message != "" then err.message else FallbackMessage)
    ensures out.1.status != 0 && out.1.body.message != ""
    ensures out.0 == ErrorLog(url, userAgent, out.1.status, out.1.body.message)
  {
    var status := if err.status != 0 then err.status else FallbackStatus;
    var message := if err.message != "" then err.message else FallbackMessage;
    (ErrorLog(url, userAgent, status, message), Response(status, StatusReport("error", message)))
  }

  /**
    An error without a status of its own, such as one the document layer
    throws, reaches the client as a 500 that carries the error's own message.
  */
  lemma UnclassifiedFaultIs500(err: Fault, url: string, userAgent: string)
    requires err.status == 0 && err.message != ""
    ensures Handle(err, url, userAgent).1 == Response(500, StatusReport("error", err.message))
  {
  }
}

=== FILE: http.dfy ===
/**
  What a handler produces: a response (a status code and a JSON body), an
  error thrown out of the handler, or nothing at all.
*/
module Http {
  import opened Tables
  import Schema
  import ProjectModel
  import ArchitectureModel
  import LinkModel
  import TeamMemberModel

  /** A stored document as it is serialised into a response. */
  datatype Record =
    | ProjectRecord(project: Doc<ProjectModel.Project>)
    | ArchitectureRecord(architecture: Doc<ArchitectureModel.Architecture>)
    | LinkRecord(link: Doc<LinkModel.Link>)
    | TeamMemberRecord(member: Doc<TeamMemberModel.TeamMember>)

  /** The JSON bodies the handlers send. */
  datatype Payload =
    | Message(message: string)                             // { message }
    | Document(record: Record)                             // the document itself
    | Documents(records: seq<Record>)                      // an array of documents
    | Envelope(message: string, key: string, record: Record) // { message, <key>: document }
    | StatusReport(status: string, message: string)        // { status, message }

  datatype Response = Response(status: int, body: Payload)

  /**
    A thrown error: its `status` property (0 when absent or falsy) and its
    `message` ("" when absent).
  */
  datatype Fault = Fault(status: int, message: string)

  datatype Outcome =
    | Sent(response: Response)  // `res.status(..).json(..)`
    | Raised(fault: Fault)      // thrown out of the handler
    | NoResponse                // the handler returns without answering

  /** A handler's outcome together with the collection it leaves behind. */
  datatype Step<T> = Step(outcome: Outcome, table: Table<T>)

  /**
    An error the document layer throws inside a handler that does not catch
    it: it carries no status of its own.
  */
  function Thrown(e: Schema.SchemaError): (f: Fault)
    ensures f.status == 0 && f.message == Schema.MessageOf(e) && f.message != ""
  {
    Fault(0, Schema.MessageOf(e))
  }

  function Reply(status: int, message: string): Outcome
  {
    Sent(Response(status, Message(message)))
  }

  function ProjectRecords(t: Table<ProjectModel.Project>): (rs: seq<Record>)
    ensures |rs| == |t| && forall i :: 0 <= i < |t| ==> rs[i] == ProjectRecord(t[i])
  {
    seq(|t|, i requires 0 <= i < |t| => ProjectRecord(t[i]))
  }

  function ArchitectureRecords(t: Table<ArchitectureModel.Architecture>): (rs: seq<Record>)
    ensures |rs| == |t| && forall i :: 0 <= i < |t| ==> rs[i] == ArchitectureRecord(t[i])
  {
    seq(|t|, i requires 0 <= i < |t| => ArchitectureRecord(t[i]))
  }

  function LinkRecords(t: Table<LinkModel.Link>): (rs: seq<Record>)
    ensures |rs| == |t| && forall i :: 0 <= i < |t| ==> rs[i] == LinkRecord(t[i])
  {
    seq(|t|, i requires 0 <= i < |t| => LinkRecord(t[i]))
  }

  function TeamMemberRecords(t: Table<TeamMemberModel.TeamMember>): (rs: seq<Record>)
    ensures |rs| == |t| && forall i :: 0 <= i < |t| ==> rs[i] == TeamMemberRecord(t[i])
  {
    seq(|t|, i requires 0 <= i < |t| => TeamMemberRecord(t[i]))
  }
}

=== FILE: json.dfy ===
/**
  JSON values as they arrive in a parsed request body or query string, and
  JavaScript's notion of truthiness that the controllers use to decide
  whether a field is "missing".
*/
module Json {
  import opened Wrappers

  /** A parsed JSON value. Numbers are integers in this model. */
  datatype Value =
    | Null
    | Bool(b: bool)
    | Num(n: int)
    | Str(s: string)
    | Array(items: seq<Value>)
    | Object(members: map<string, Value>)

  /** A request body (or query string): field name to value. */
  type Body = map<string, Value>

  /**
    JavaScript truthiness: `null`, `false`, `0` and `""` are falsy, every
    array and object (even an empty one) is truthy.
  */
  predicate Truthy(v: Value)
  {
    match v
    case Null => false
    case Bool(b) => b
    case Num(n) => n != 0
    case Str(s) => s != ""
    case Array(_) => true
    case Object(_) => true
  }

  /** `!!body[key]`: an absent key reads as `undefined`, which is falsy. */
  predicate Has(body: Body, key: string)
  {
    key in body && Truthy(body[key])
  }

  /** `!body || Object.keys(body).length == 0`. */
  predicate NoBody(body: Option<Body>)
  {
    body.None? || |body.value| == 0
  }

  /** The body the update queries receive: an absent body is an empty update. */
  function UpdateOf(body: Option<Body>): (u: Body)
    ensures body.Some? ==> u == body.value
    ensures NoBody(body) <==> |u| == 0
  {
    if body.Some? then body.value else map[]
  }

  /** Decimal rendering of an integer, as JavaScript's `String(n)` gives it. */
  function DecimalString(n: int): (s: string)
    ensures |s| > 0
    ensures s[0] == '-' <==> n < 0
    ensures n >= 0 ==> IsDigits(s) && DigitsValue(s) == n
    ensures n < 0 ==> IsDigits(s[1..]) && DigitsValue(s[1..]) == -n
  {
    if n < 0 then
      var d := Digits(-n);
      assert ("-" + d)[1..] == d;
      "-" + d
    else Digits(n)
  }

  /** Every character is a decimal digit. */
  predicate IsDigits(s: string)
  {
    forall i :: 0 <= i < |s| ==> '0' <= s[i] <= '9'
  }

  /** The number a string of decimal digits denotes, most significant digit first. */
  function DigitsValue(s: string): int
  {
    if |s| == 0 then 0 else 10 * DigitsValue(s[..|s| - 1]) + (s[|s| - 1] as int - '0' as int)
  }

  /** The decimal digits of `n`, without leading zeros; reading them back gives `n`. */
  function Digits(n: nat): (s: string)
    ensures |s| > 0 && '0' <= s[0] <= '9'
    ensures IsDigits(s) && DigitsValue(s) == n
    ensures |s| > 1 ==> s[0] != '0'
    decreases n
  {
    var last := [('0' as int + n % 10) as char];
    if n < 10 then last
    else
      var front := Digits(n / 10);
      assert (front + last)[..|front + last| - 1] == front;
      front + last
  }
}

=== FILE: link_controller.dfy ===
/**
  The Link handlers. They run inside an asynchronous wrapper: an error the
  document layer throws is not answered here but raised to the application's
  error handler, with no status of its own. Refusals the handler decides
  itself go out through the error-response helper, whose body is
  `{ message }`.
*/
module LinkController {
  import opened Wrappers
  import opened Json
  import opened Tables
  import opened Schema
  import opened LinkModel
  import ProjectModel
  import opened Http
  import opened Store
  import GlobalErrorHandler

  /** The message `Object.entries` throws when the body is absent. */
  const NoObjectMessage := "Cannot convert undefined or null to object"

  /** `!name || !ofProject || !type || !url`. */
  predicate MissingFields(b: Body)
  {
    !Has(b, "name") || !Has(b, "ofProject") || !Has(b, "type") || !Has(b, "url")
  }

  /** `createLink`: the whole body goes to `Link.create`; the referenced project is not looked up. */
  function CreateSpec(t: Table<Link>, isValidId: Id -> bool, body: Option<Body>, newId: Id, now: Time): (out: Step<Link>)
    ensures out.outcome.Sent? || out.outcome.Raised?
    ensures !(out.outcome.Sent? && out.outcome.response.status == 201) ==> out.table == t
    ensures body.None? ==> out.outcome == Raised(Fault(0, NoObjectMessage))
    ensures body.Some? && |body.value| == 0 ==> out.outcome == Reply(400, "Request body cannot be empty")
    ensures !NoBody(body) && MissingFields(body.value) ==> out.outcome == Reply(400, "Missing required fields")
    ensures out.outcome.Raised? ==> out.outcome.fault.status == 0 && out.outcome.fault.message != ""
    ensures out.outcome.Sent? ==> out.outcome.response.status in {201, 400}
    ensures !NoBody(body) && !MissingFields(body.value) ==>
      var built := Build(body.value, isValidId);
      && (built.Err? ==> out.outcome == Raised(Thrown(built.error)))
      && (built.Ok? ==> out.outcome.Sent? && out.outcome.response.status == 201)
    ensures out.outcome.Sent? && out.outcome.response.status == 201 ==>
      && body.Some? && !MissingFields(body.value)
      && |out.table| == |t| + 1 && out.table[..|t|] == t
      && var d := out.table[|t|];
      && out.outcome.response.body == Document(LinkRecord(d))
      && d.id == newId && d.createdAt == now && d.updatedAt == now
      && Build(body.value, isValidId) == Ok(d.fields)
  {
    if body.None? then Step(Raised(Fault(0, NoObjectMessage)), t)
    else if |body.value| == 0 then Step(Reply(400, "Request body cannot be empty"), t)
    else if MissingFields(body.value) then Step(Reply(400, "Missing required fields"), t)
    else match Build(body.value, isValidId)
      case Err(e) => Step(Raised(Thrown(e)), t)
      case Ok(l) =>
        var d := Doc(newId, l, now, now);
        Step(Sent(Response(201, Document(LinkRecord(d)))), t + [d])
  }

  /** `deleteLink`. */
  function DeleteSpec(t: Table<Link>, isValidId: Id -> bool, id: Id): (out: Step<Link>)
    ensures !isValidId(id) ==> out == Step(Reply(400, "Invalid link ID"), t)
    ensures isValidId(id) && !HasId(t, id) ==> out == Step(Reply(404, "Link not found"), t)
    ensures isValidId(id) && HasId(t, id) ==>
      out == Step(Reply(200, "Link deleted successfully"), DeleteById(t, id))
  {
    if !isValidId(id) then Step(Reply(400, "Invalid link ID"), t)
    else if !HasId(t, id) then Step(Reply(404, "Link not found"), t)
    else Step(Reply(200, "Link deleted successfully"), DeleteById(t, id))
  }

  /** `updateLink`: the id and existence checks come before the body check. */
  function UpdateSpec(t: Table<Link>, isValidId: Id -> bool, id: Id, body: Option<Body>, now: Time): (out: Step<Link>)
    ensures out.outcome.Sent? || out.outcome.Raised?
    ensures !(out.outcome.Sent? && out.outcome.response.status == 200) ==> out.table == t
    ensures !isValidId(id) ==> out.outcome == Reply(400, "Invalid link ID")
    ensures isValidId(id) && !HasId(t, id) ==> out.outcome == Reply(404, "Link not found")
    ensures isValidId(id) && HasId(t, id) && NoBody(body) ==> out.outcome == Reply(400, "Request body cannot be empty")
    ensures out.outcome.Raised? ==> out.outcome.fault.status == 0 && out.outcome.fault.message != ""
    ensures out.outcome.Sent? ==> out.outcome.response.status in {200, 400, 404}
    ensures isValidId(id) && HasId(t, id) && !NoBody(body) ==>
      var applied := Apply(FindById(t, id).value.fields, body.value, isValidId);
      && (applied.Err? ==> out.outcome == Raised(Thrown(applied.error)))
      && (applied.Ok? ==> out.outcome.Sent? && out.outcome.response.status == 200)
    ensures out.outcome.Sent? && out.outcome.response.status == 200 ==>
      && isValidId(id) && HasId(t, id) && !NoBody(body)
      && var old_ := FindById(t, id).value;
      && out.outcome.response.body.Envelope?
      && out.outcome.response.body.message == "Link updated successfully"
      && out.outcome.response.body.key == "data"
      && out.outcome.response.body.record.LinkRecord?
      && var d := out.outcome.response.body.record.link;
      && d.id == id && d.createdAt == old_.createdAt && d.updatedAt == now
      && Apply(old_.fields, body.value, isValidId) == Ok(d.fields)
      && out.table == UpdateById(t, id, d)
  {
    if !isValidId(id) then Step(Reply(400, "Invalid link ID"), t)
    else match FindById(t, id)
      case None => Step(Reply(404, "Link not found"), t)
      case Some(current) =>
        if NoBody(body) then Step(Reply(400, "Request body cannot be empty"), t)
        else match Apply(current.fields, body.value, isValidId)
          case Err(e) => Step(Raised(Thrown(e)), t)
          case Ok(l) =>
            var d := current.(fields := l, updatedAt := now);
            Step(Sent(Response(200, Envelope("Link updated successfully", "data", LinkRecord(d)))), UpdateById(t, id, d))
  }

  /** `Link.find({ ofProject: pid })`: the project's links in stored order. */
  function LinksOf(t: Table<Link>, pid: Id): (r: Table<Link>)
    ensures |r| <= |t|
    ensures forall d :: d in r <==> d in t && d.fields.ofProject == pid
  {
    if |t| == 0 then []
    else (if t[0].fields.ofProject == pid then [t[0]] else []) + LinksOf(t[1..], pid)
  }

  /** Filtering by project distributes over concatenation, so the stored order is kept. */
  lemma {:induction false} LinksOfAppend(a: Table<Link>, b: Table<Link>, pid: Id)
    ensures LinksOf(a + b, pid) == LinksOf(a, pid) + LinksOf(b, pid)
  {
    if |a| > 0 {
      assert (a + b)[1..] == a[1..] + b;
      LinksOfAppend(a[1..], b, pid);
    } else {
      assert a + b == b;
    }
  }

  /** The links of `t` of kind `k`, in order. */
  function WithKind(t: Table<Link>, k: LinkType): (r: Table<Link>)
    ensures |r| <= |t|
    ensures forall d :: d in r <==> d in t && d.fields.kind == k
  {
    if |t| == 0 then []
    else (if t[0].fields.kind == k then [t[0]] else []) + WithKind(t[1..], k)
  }

  /** `Link.find({ ofProject: pid, type })`: one pass with both conditions. */
  function LinksOfKind(t: Table<Link>, pid: Id, k: LinkType): (r: Table<Link>)
    ensures |r| <= |t|
    ensures forall d :: d in r <==> d in t && d.fields.ofProject == pid && d.fields.kind == k
  {
    if |t| == 0 then []
    else (if t[0].fields.ofProject == pid && t[0].fields.kind == k then [t[0]] else []) + LinksOfKind(t[1..], pid, k)
  }

  /** Each link of the project is listed exactly as many times as it is stored, and no other link is. */
  lemma {:induction false} LinksOfCounts(t: Table<Link>, pid: Id)
    ensures forall d :: multiset(LinksOf(t, pid))[d] == if d.fields.ofProject == pid then multiset(t)[d] else 0
  {
    if |t| > 0 {
      LinksOfCounts(t[1..], pid);
      assert t == [t[0]] + t[1..];
    }
  }

  /** Each link of the type is kept exactly as many times as it occurs, and no other link is. */
  lemma {:induction false} WithKindCounts(t: Table<Link>, k: LinkType)
    ensures forall d :: multiset(WithKind(t, k))[d] == if d.fields.kind == k then multiset(t)[d] else 0
  {
    if |t| > 0 {
      WithKindCounts(t[1..], k);
      assert t == [t[0]] + t[1..];
    }
  }

  /** Each link of the project and type is listed exactly as many times as it is stored, and no other link is. */
  lemma {:induction false} LinksOfKindCounts(t: Table<Link>, pid: Id, k: LinkType)
    ensures forall d :: multiset(LinksOfKind(t, pid, k))[d] == if d.fields.ofProject == pid && d.fields.kind == k then multiset(t)[d] else 0
  {
    if |t| > 0 {
      LinksOfKindCounts(t[1..], pid, k);
      assert t == [t[0]] + t[1..];
    }
  }

  /** Filtering by project and type at once gives the project's links of that type, in the same order. */
  lemma {:induction false} LinksOfKindIsProjectLinksOfKind(t: Table<Link>, pid: Id, k: LinkType)
    ensures LinksOfKind(t, pid, k) == WithKind(LinksOf(t, pid), k)
  {
    if |t| > 0 {
      LinksOfKindIsProjectLinksOfKind(t[1..], pid, k);
      var head := if t[0].fields.ofProject == pid then [t[0]] else [];
      WithKindAppend(head, LinksOf(t[1..], pid), k);
    }
  }

  /** Filtering by kind distributes over concatenation. */
  lemma {:induction false} WithKindAppend(a: Table<Link>, b: Table<Link>, k: LinkType)
    ensures WithKind(a + b, k) == WithKind(a, k) + WithKind(b, k)
  {
    if |a| > 0 {
      assert (a + b)[1..] == a[1..] + b;
      WithKindAppend(a[1..], b, k);
    } else {
      assert a + b == b;
    }
  }

  /** `getProjectLinks`: the id must name a stored project. */
  function GetProjectLinks(projects: Table<ProjectModel.Project>, links: Table<Link>, isValidId: Id -> bool, id: Id): (r: Response)
    ensures !isValidId(id) ==> r == Response(400, Message("Invalid link ID"))
    ensures isValidId(id) && !HasId(projects, id) ==> r == Response(404, Message("Link Project not found"))
    ensures r.status == 200 <==> isValidId(id) && HasId(projects, id)
    ensures r.status == 200 ==>
      && r.body.Documents?
      && (forall rec :: rec in r.body.records ==> rec.LinkRecord? && rec.link in links && rec.link.fields.ofProject == id)
      && (forall d :: d in links && d.fields.ofProject == id ==> LinkRecord(d) in r.body.records)
      && r.body.records == LinkRecords(LinksOf(links, id))
  {
    if !isValidId(id) then Response(400, Message("Invalid link ID"))
    else if !HasId(projects, id) then Response(404, Message("Link Project not found"))
    else
      var found := LinksOf(links, id);
      assert forall d :: d in found ==> LinkRecord(d) in LinkRecords(found) by {
        forall d | d in found ensures LinkRecord(d) in LinkRecords(found) {
          var i :| 0 <= i < |found| && found[i] == d;
          assert LinkRecords(found)[i] == LinkRecord(d);
        }
      }
      Response(200, Documents(LinkRecords(found)))
  }

  /** `getLinksByType`: the project check, then the `type` query parameter, then the filtered find. */
  function GetLinksByType(projects: Table<ProjectModel.Project>, links: Table<Link>, isValidId: Id -> bool, id: Id, typeQuery: Option<string>): (r: Response)
    ensures !isValidId(id) ==> r == Response(400, Message("Invalid link ID"))
    ensures isValidId(id) && !HasId(projects, id) ==> r == Response(404, Message("Link Project not found"))
    ensures isValidId(id) && HasId(projects, id) && (typeQuery.None? || typeQuery.value == "") ==>
      r == Response(400, Message("Missing Query <type>"))
    ensures isValidId(id) && HasId(projects, id) && typeQuery.Some? && typeQuery.value != "" && typeQuery.value !in LinkTypeNames ==>
      r == Response(400, Message("Invalid Query <type> "))
    ensures r.status == 200 <==> isValidId(id) && HasId(projects, id) && typeQuery.Some? && typeQuery.value in LinkTypeNames
    ensures r.status == 200 ==>
      && r.body.Documents?
      && forall rec :: rec in r.body.records ==>
        rec.LinkRecord? && rec.link in links && rec.link.fields.ofProject == id && LinkTypeName(rec.link.fields.kind) == typeQuery.value
    ensures r.status == 200 ==>
      r.body.records == LinkRecords(WithKind(LinksOf(links, id), ParseLinkType(typeQuery.value).value))
  {
    if !isValidId(id) then Response(400, Message("Invalid link ID"))
    else if !HasId(projects, id) then Response(404, Message("Link Project not found"))
    else if typeQuery.None? || typeQuery.value == "" then Response(400, Message("Missing Query <type>"))
    else match ParseLinkType(typeQuery.value)
      case None => Response(400, Message("Invalid Query <type> "))
      case Some(k) =>
        LinksOfKindIsProjectLinksOfKind(links, id, k);
        Response(200, Documents(LinkRecords(LinksOfKind(links, id, k))))
  }

  /** Listing by type is listing the project's links and keeping those of the requested type. */
  lemma ByTypeIsProjectLinksOfType(projects: Table<ProjectModel.Project>, links: Table<Link>, isValidId: Id -> bool, id: Id, k: LinkType)
    requires isValidId(id) && HasId(projects, id)
    ensures GetLinksByType(projects, links, isValidId, id, Some(LinkTypeName(k)))
      == Response(200, Documents(LinkRecords(WithKind(LinksOf(links, id), k))))
  {
    LinksOfKindIsProjectLinksOfKind(links, id, k);
  }

  lemma CreateKeepsConsistent(t: Table<Link>, isValidId: Id -> bool, body: Option<Body>, newId: Id, now: Time)
    requires Consistent(t, isValidId) && isValidId(newId) && !HasId(t, newId)
    ensures Consistent(CreateSpec(t, isValidId, body, newId, now).table, isValidId)
  {
    var out := CreateSpec(t, isValidId, body, newId, now);
    if out.table != t {
      var d := out.table[|t|];
      assert out.table == t + [d];
      InsertKeyed(t, d, isValidId);
    }
  }

  lemma UpdateKeepsConsistent(t: Table<Link>, isValidId: Id -> bool, id: Id, body: Option<Body>, now: Time)
    requires Consistent(t, isValidId)
    ensures Consistent(UpdateSpec(t, isValidId, id, body, now).table, isValidId)
  {
    var out := UpdateSpec(t, isValidId, id, body, now);
    if out.table != t {
      UpdateKeyed(t, id, out.outcome.response.body.record.link, isValidId);
    }
  }

  lemma DeleteKeepsConsistent(t: Table<Link>, isValidId: Id -> bool, id: Id)
    requires Consistent(t, isValidId)
    ensures Consistent(DeleteSpec(t, isValidId, id).table, isValidId)
  {
    DeleteKeyed(t, id, isValidId);
  }

  /** A created link is listed with its project's links. */
  lemma CreateThenListed(projects: Table<ProjectModel.Project>, t: Table<Link>, isValidId: Id -> bool, body: Option<Body>, newId: Id, now: Time)
    requires CreateSpec(t, isValidId, body, newId, now).outcome.Sent?
    requires CreateSpec(t, isValidId, body, newId, now).outcome.response.status == 201
    requires HasId(projects, body.value["ofProject"].s)
    ensures var out := CreateSpec(t, isValidId, body, newId, now);
      var listed := GetProjectLinks(projects, out.table, isValidId, body.value["ofProject"].s);
      listed.status == 200 && out.outcome.response.body.record in listed.body.records
  {
    var out := CreateSpec(t, isValidId, body, newId, now);
    var d := out.table[|t|];
    assert d in out.table;
  }

  /** Every error raised by a Link handler reaches the client as a 500 carrying the error's own message. */
  lemma RaisedFaultsAre500(t: Table<Link>, isValidId: Id -> bool, id: Id, body: Option<Body>, newId: Id, now: Time, url: string, userAgent: string)
    ensures var c := CreateSpec(t, isValidId, body, newId, now).outcome;
      c.Raised? ==> GlobalErrorHandler.Handle(c.fault, url, userAgent).1 == Response(500, StatusReport("error", c.fault.message))
    ensures var u := UpdateSpec(t, isValidId, id, body, now).outcome;
      u.Raised? ==> GlobalErrorHandler.Handle(u.fault, url, userAgent).1 == Response(500, StatusReport("error", u.fault.message))
  {
  }

  /** No path is unique: the same body can be created again, and the collection then holds two equal links. */
  lemma RepeatedCreateIsAccepted(t: Table<Link>, isValidId: Id -> bool, body: Option<Body>, id1: Id, id2: Id, now1: Time, now2: Time)
    requires CreateSpec(t, isValidId, body, id1, now1).outcome.Sent?
    requires CreateSpec(t, isValidId, body, id1, now1).outcome.response.status == 201
    ensures var t1 := CreateSpec(t, isValidId, body, id1, now1).table;
      var out := CreateSpec(t1, isValidId, body, id2, now2);
      && out.outcome.Sent? && out.outcome.response.status == 201
      && |out.table| == |t| + 2 && out.table[|t|].fields == out.table[|t| + 1].fields
  {
    var t1 := CreateSpec(t, isValidId, body, id1, now1).table;
    assert t1[|t|] == CreateSpec(t1, isValidId, body, id2, now2).table[|t|];
  }

  /** `createLink` on the store. */
  method CreateLink(db: Database, body: Option<Body>, newId: Id, now: Time) returns (r: Outcome)
    requires db.Valid() && db.isValidId(newId) && !HasId(db.links, newId)
    modifies db`links
    ensures db.Valid()
    ensures Step(r, db.links) == CreateSpec(old(db.links), db.isValidId, body, newId, now)
  {
    CreateKeepsConsistent(db.links, db.isValidId, body, newId, now);
    if body.None? {
      return Raised(Fault(0, NoObjectMessage));
    }
    var b := body.value;
    if |b| == 0 {
      return Reply(400, "Request body cannot be empty");
    }
    if !Has(b, "name") || !Has(b, "ofProject") || !Has(b, "type") || !Has(b, "url") {
      return Reply(400, "Missing required fields");
    }
    var created := Build(b, db.isValidId);
    if created.Err? {
      return Raised(Thrown(created.error));
    }
    var d := Doc(newId, created.value, now, now);
    db.links := db.links + [d];
    r := Sent(Response(201, Document(LinkRecord(d))));
  }

  /** `deleteLink` on the store. */
  method DeleteLink(db: Database, id: Id) returns (r: Outcome)
    requires db.Valid()
    modifies db`links
    ensures db.Valid()
    ensures Step(r, db.links) == DeleteSpec(old(db.links), db.isValidId, id)
  {
    DeleteKeepsConsistent(db.links, db.isValidId, id);
    if !db.isValidId(id) {
      return Reply(400, "Invalid link ID");
    }
    if FindById(db.links, id).None? {
      return Reply(404, "Link not found");
    }
    db.links := DeleteById(db.links, id);
    r := Reply(200, "Link deleted successfully");
  }

  /** `updateLink` on the store. */
  method UpdateLink(db: Database, id: Id, body: Option<Body>, now: Time) returns (r: Outcome)
    requires db.Valid()
    modifies db`links
    ensures db.Valid()
    ensures Step(r, db.links) == UpdateSpec(old(db.links), db.isValidId, id, body, now)
  {
    UpdateKeepsConsistent(db.links, db.isValidId, id, body, now);
    if !db.isValidId(id) {
      return Reply(400, "Invalid link ID");
    }
    var found := FindById(db.links, id);
    if found.None? {
      return Reply(404, "Link not found");
    }
    if NoBody(body) {
      return Reply(400, "Request body cannot be empty");
    }
    var applied := Apply(found.value.fields, body.value, db.isValidId);
    if applied.Err? {
      return Raised(Thrown(applied.error));
    }
    var d := found.value.(fields := applied.value, updatedAt := now);
    db.links := UpdateById(db.links, id, d);
    r := Sent(Response(200, Envelope("Link updated successfully", "data", LinkRecord(d))));
  }
}

=== FILE: link_model.dfy ===
/**
  The Link schema: `name`, `url`, `type` (one of doc, deploy, dev) and
  `ofProject` (an ObjectId referring to a Project), all required, with
  automatic timestamps. No path is unique, and nothing checks that the
  referenced project exists.
*/
module LinkModel {
  import opened Wrappers
  import opened Json
  import opened Tables
  import opened Schema

  datatype LinkType = DocLink | DeployLink | DevLink

  /** The `enum` list of the `type` path. */
  const LinkTypeNames: seq<string> := ["doc", "deploy", "dev"]

  function LinkTypeName(k: LinkType): (text: string)
    ensures text in LinkTypeNames
  {
    match k
    case DocLink => "doc"
    case DeployLink => "deploy"
    case DevLink => "dev"
  }

  function ParseLinkType(text: string): (r: Option<LinkType>)
    ensures r.Some? <==> text in LinkTypeNames
    ensures r.Some? ==> LinkTypeName(r.value) == text
  {
    if text == "doc" then Some(DocLink)
    else if text == "deploy" then Some(DeployLink)
    else if text == "dev" then Some(DevLink)
    else None
  }

  /** A stored link's schema fields; `kind` is the `type` path. */
  datatype Link = Link(name: string, url: string, kind: LinkType, ofProject: Id)

  /** What the validators guarantee of every stored link. */
  ghost predicate Conforms(l: Link, isValidId: Id -> bool)
  {
    l.name != "" && l.url != "" && isValidId(l.ofProject)
  }

  /** What holds of the links collection between requests. */
  ghost predicate Consistent(t: Table<Link>, isValidId: Id -> bool)
  {
    && Keyed(t, isValidId)
    && forall i :: 0 <= i < |t| ==> Conforms(t[i].fields, isValidId)
  }

  /** The `type` path: required and a member of the enum list. */
  function KindOf(v: Option<Value>): (r: Result<LinkType, SchemaError>)
    ensures r.Ok? <==> v.Some? && AsString(v.value).Some? && AsString(v.value).value in LinkTypeNames
    ensures r.Ok? ==> AsString(v.value) == Some(LinkTypeName(r.value))
  {
    var text :- EnumString("type", v, LinkTypeNames, true);
    Ok(ParseLinkType(text).value)
  }

  /** `Link.create(doc)`: keeps the schema paths of `doc`, cast and validated in schema order. */
  function Build(doc: Body, isValidId: Id -> bool): (r: Result<Link, SchemaError>)
    ensures r.Ok? ==> Conforms(r.value, isValidId)
    ensures r.Ok? ==> "name" in doc && AsString(doc["name"]) == Some(r.value.name)
    ensures r.Ok? ==> "url" in doc && AsString(doc["url"]) == Some(r.value.url)
    ensures r.Ok? ==> "type" in doc && AsString(doc["type"]) == Some(LinkTypeName(r.value.kind))
    ensures r.Ok? ==> "ofProject" in doc && doc["ofProject"] == Str(r.value.ofProject)
    ensures (exists p :: p in ["name", "url", "type", "ofProject"] && p !in doc) ==> r.Err?
    ensures r.Ok? <==>
      && "name" in doc && StringAccepted(doc["name"])
      && "url" in doc && StringAccepted(doc["url"])
      && "type" in doc && EnumAccepted(doc["type"], LinkTypeNames)
      && "ofProject" in doc && IdAccepted(doc["ofProject"], isValidId)
  {
    var name :- RequiredString("name", Lookup(doc, "name"));
    var url :- RequiredString("url", Lookup(doc, "url"));
    var kind :- KindOf(Lookup(doc, "type"));
    var ofProject :- RequiredObjectId("ofProject", Lookup(doc, "ofProject"), isValidId);
    Ok(Link(name, url, kind, ofProject))
  }

  /** `findByIdAndUpdate(id, update, { runValidators: true })` on one link. */
  function Apply(l: Link, update: Body, isValidId: Id -> bool): (r: Result<Link, SchemaError>)
    ensures r.Ok? && "name" in update ==> AsString(update["name"]) == Some(r.value.name)
    ensures r.Ok? && "name" !in update ==> r.value.name == l.name
    ensures r.Ok? && "url" in update ==> AsString(update["url"]) == Some(r.value.url)
    ensures r.Ok? && "url" !in update ==> r.value.url == l.url
    ensures r.Ok? && "type" in update ==> AsString(update["type"]) == Some(LinkTypeName(r.value.kind))
    ensures r.Ok? && "type" !in update ==> r.value.kind == l.kind
    ensures r.Ok? && "ofProject" in update ==> update["ofProject"] == Str(r.value.ofProject)
    ensures r.Ok? && "ofProject" !in update ==> r.value.ofProject == l.ofProject
    ensures r.Ok? && Conforms(l, isValidId) ==> Conforms(r.value, isValidId)
    ensures (forall k :: k in update ==> k !in ["name", "url", "type", "ofProject"]) ==> r == Ok(l)
    ensures r.Ok? <==>
      && ("name" in update ==> StringAccepted(update["name"]))
      && ("url" in update ==> StringAccepted(update["url"]))
      && ("type" in update ==> EnumAccepted(update["type"], LinkTypeNames))
      && ("ofProject" in update ==> IdAccepted(update["ofProject"], isValidId))
  {
    var name :- if "name" in update then RequiredString("name", Some(update["name"])) else Ok(l.name);
    var url :- if "url" in update then RequiredString("url", Some(update["url"])) else Ok(l.url);
    var kind :- if "type" in update then KindOf(Some(update["type"])) else Ok(l.kind);
    var ofProject :- if "ofProject" in update then RequiredObjectId("ofProject", Some(update["ofProject"]), isValidId) else Ok(l.ofProject);
    Ok(Link(name, url, kind, ofProject))
  }
}

=== FILE: mounted_project_controller.dfy ===
/**
  The Project handlers the router mounts under `/project`. Create and list
  behave exactly as the handlers of `ProjectController`; edit and delete are
  empty: they never answer and never touch the store.
*/
module MountedProjectController {
  import opened Wrappers
  import opened Json
  import opened Tables
  import opened ProjectModel
  import opened Http
  import opened Store
  import ProjectController

  /** `CreateProject`: the same guards and the same create as `ProjectController.CreateProject`. */
  method CreateProject(db: Database, body: Option<Body>, newId: Id, now: Time) returns (r: Outcome)
    requires db.Valid() && db.isValidId(newId) && !HasId(db.projects, newId)
    modifies db`projects
    ensures db.Valid()
    ensures Step(r, db.projects) == ProjectController.CreateSpec(old(db.projects), body, newId, now)
  {
    r := ProjectController.CreateProject(db, body, newId, now);
  }

  /** `ViewProject`: the same listing as `ProjectController.ViewProject`. */
  function ViewProject(t: Table<Project>): (r: Response)
    ensures r == ProjectController.ViewProject(t)
    ensures r.status == 200 && (r.body.Message? <==> |t| == 0)
  {
    ProjectController.ViewProject(t)
  }

  /** `EditProject`: an empty handler; the request is left without a response and the store is untouched. */
  method EditProject(db: Database, id: Id, body: Option<Body>) returns (r: Outcome)
    ensures r == NoResponse
  {
    r := NoResponse;
  }

  /** `DeleteProject`: an empty handler; the request is left without a response and the store is untouched. */
  method DeleteProject(db: Database, id: Id) returns (r: Outcome)
    ensures r == NoResponse
  {
    r := NoResponse;
  }
}

=== FILE: project_controller.dfy ===
/**
  The Project handlers: create with a name-uniqueness pre-check, list, read
  by id, edit with validation and the unique index, and delete. Every
  error the document layer throws inside a handler is caught and answered
  with status 400 and the error's message.

  Each state-changing handler is a specification function from the projects
  collection before the request to the response and the collection after
  it, and a method on the store proved to behave as that function says and
  to keep the store's invariant.
*/
module ProjectController {
  import opened Wrappers
  import opened Json
  import opened Tables
  import opened Schema
  import opened ProjectModel
  import opened Http
  import opened Store

  /** `!name || !deadline || !description`. */
  predicate MissingFields(b: Body)
  {
    !Has(b, "name") || !Has(b, "deadline") || !Has(b, "description")
  }

  /** `Project.findOne({ name })` with the body's `name`; a name that is not text matches nothing. */
  predicate NameInUse(t: Table<Project>, b: Body)
    requires "name" in b
  {
    match AsString(b["name"])
    case Some(n) => NameTaken(t, n)
    case None => false
  }

  /** The document `Project.create` receives: the three named fields only, so `status` takes its default. */
  function CreateFields(b: Body): (doc: Body)
    requires "name" in b && "deadline" in b && "description" in b
    ensures doc.Keys == {"name", "deadline", "description"}
    ensures forall k :: k in doc ==> doc[k] == b[k]
  {
    map["name" := b["name"], "deadline" := b["deadline"], "description" := b["description"]]
  }

  /** `CreateProject`: what it answers and the collection it leaves. */
  function CreateSpec(t: Table<Project>, body: Option<Body>, newId: Id, now: Time): (out: Step<Project>)
    ensures out.outcome.Sent? && out.outcome.response.status in {201, 400}
    ensures out.outcome.response.status == 400 ==> out.table == t && out.outcome.response.body.Message?
    ensures NoBody(body) ==> out.outcome == Reply(400, "Body is required")
    ensures !NoBody(body) && MissingFields(body.value) ==> out.outcome == Reply(400, "Missing fields in the body")
    ensures !NoBody(body) && !MissingFields(body.value) && NameInUse(t, body.value) ==>
      out.outcome == Reply(400, "Project name must be unique")
    ensures !NoBody(body) && !MissingFields(body.value) && !NameInUse(t, body.value) ==>
      var built := Build(CreateFields(body.value));
      && (out.outcome.response.status == 201 <==> built.Ok?)
      && (built.Err? ==> out.outcome == Reply(400, MessageOf(built.error)))
    ensures out.outcome.response.status == 201 ==>
      && body.Some? && !MissingFields(body.value)
      && |out.table| == |t| + 1 && out.table[..|t|] == t
      && var d := out.table[|t|];
      && out.outcome.response.body == Document(ProjectRecord(d))
      && d.id == newId && d.createdAt == now && d.updatedAt == now
      && Some(d.fields.name) == AsString(body.value["name"])
      && d.fields.deadline == body.value["deadline"]
      && Some(d.fields.description) == AsString(body.value["description"])
      && d.fields.status == DefaultStatus
      && !NameTaken(t, d.fields.name)
  {
    if NoBody(body) then Step(Reply(400, "Body is required"), t)
    else if MissingFields(body.value) then Step(Reply(400, "Missing fields in the body"), t)
    else if NameInUse(t, body.value) then Step(Reply(400, "Project name must be unique"), t)
    else match Build(CreateFields(body.value))
      case Err(e) => Step(Reply(400, MessageOf(e)), t)
      case Ok(p) =>
        var d := Doc(newId, p, now, now);
        Step(Sent(Response(201, Document(ProjectRecord(d)))), t + [d])
  }

  /** `ViewProject`: every project, or a message when there is none. */
  function ViewProject(t: Table<Project>): (r: Response)
    ensures r.status == 200
    ensures r.body == Message("No projects found") <==> |t| == 0
    ensures |t| > 0 ==>
      && r.body.Documents? && |r.body.records| == |t|
      && forall i :: 0 <= i < |t| ==> r.body.records[i] == ProjectRecord(t[i])
  {
    if |t| == 0 then Response(200, Message("No projects found"))
    else Response(200, Documents(ProjectRecords(t)))
  }

  /** `GetProjectById`. */
  function GetProjectById(t: Table<Project>, isValidId: Id -> bool, id: Id): (r: Response)
    ensures !isValidId(id) ==> r == Response(400, Message("Invalid project ID"))
    ensures isValidId(id) && !HasId(t, id) ==> r == Response(404, Message("Project not found"))
    ensures r.status == 200 <==> isValidId(id) && HasId(t, id)
    ensures r.status == 200 ==>
      && r.body.Document? && r.body.record.ProjectRecord?
      && r.body.record.project in t && r.body.record.project.id == id
  {
    if !isValidId(id) then Response(400, Message("Invalid project ID"))
    else match FindById(t, id)
      case None => Response(404, Message("Project not found"))
      case Some(d) => Response(200, Document(ProjectRecord(d)))
  }

  /** `EditProject`: the update validated path by path, then checked against the unique index on `name`. */
  function EditSpec(t: Table<Project>, isValidId: Id -> bool, id: Id, body: Option<Body>, now: Time): (out: Step<Project>)
    ensures out.outcome.Sent? && out.outcome.response.status in {200, 400, 404}
    ensures out.outcome.response.status != 200 ==> out.table == t && out.outcome.response.body.Message?
    ensures NoBody(body) ==> out.outcome == Reply(400, "Request body cannot be empty")
    ensures !NoBody(body) && !isValidId(id) ==> out.outcome == Reply(400, "Invalid project ID")
    ensures !NoBody(body) && isValidId(id) && !HasId(t, id) ==> out.outcome == Reply(404, "Project not found")
    ensures out.outcome.response.status == 404 ==> !HasId(t, id)
    ensures !NoBody(body) && isValidId(id) && HasId(t, id) ==>
      var applied := Apply(FindById(t, id).value.fields, body.value);
      && (applied.Err? ==> out.outcome == Reply(400, MessageOf(applied.error)))
      && (applied.Ok? && NameTakenByOther(t, applied.value.name, id) ==>
            out.outcome == Reply(400, MessageOf(DuplicateKey("name", applied.value.name))))
      && (out.outcome.response.status == 200 <==> applied.Ok? && !NameTakenByOther(t, applied.value.name, id))
    ensures out.outcome.response.status == 200 ==>
      && body.Some? && isValidId(id) && HasId(t, id)
      && var old_ := FindById(t, id).value;
      && out.outcome.response.body.Envelope?
      && out.outcome.response.body.message == "Project updated successfully"
      && out.outcome.response.body.key == "updatedProject"
      && out.outcome.response.body.record.ProjectRecord?
      && var d := out.outcome.response.body.record.project;
      && d.id == id && d.createdAt == old_.createdAt && d.updatedAt == now
      && Apply(old_.fields, body.value) == Ok(d.fields)
      && !NameTakenByOther(t, d.fields.name, id)
      && out.table == UpdateById(t, id, d)
  {
    if NoBody(body) then Step(Reply(400, "Request body cannot be empty"), t)
    else if !isValidId(id) then Step(Reply(400, "Invalid project ID"), t)
    else match FindById(t, id)
      case None => Step(Reply(404, "Project not found"), t)
      case Some(current) =>
        match Apply(current.fields, body.value)
        case Err(e) => Step(Reply(400, MessageOf(e)), t)
        case Ok(p) =>
          if NameTakenByOther(t, p.name, id) then Step(Reply(400, MessageOf(DuplicateKey("name", p.name))), t)
          else
            var d := current.(fields := p, updatedAt := now);
            Step(Sent(Response(200, Envelope("Project updated successfully", "updatedProject", ProjectRecord(d)))),
                 UpdateById(t, id, d))
  }

  /**
    `DeleteProject`: there is no shape check on the id, so a malformed one
    makes `findById` throw a cast error, which is answered with 400.
  */
  function DeleteSpec(t: Table<Project>, isValidId: Id -> bool, id: Id): (out: Step<Project>)
    ensures out.outcome.Sent? && out.outcome.response.status in {200, 400, 404}
    ensures out.outcome.response.status != 200 ==> out.table == t && out.outcome.response.body.Message?
    ensures !isValidId(id) ==> out.outcome == Reply(400, MessageOf(CastFailed("_id", "ObjectId")))
    ensures isValidId(id) && !HasId(t, id) ==> out.outcome == Reply(404, "Project not found")
    ensures out.outcome.response.status == 200 <==> isValidId(id) && HasId(t, id)
    ensures out.outcome.response.status == 200 ==>
      && out.outcome.response.body == Envelope("Project deleted successfully", "deletedProject", ProjectRecord(FindById(t, id).value))
      && out.table == DeleteById(t, id)
  {
    if !isValidId(id) then Step(Reply(400, MessageOf(CastFailed("_id", "ObjectId"))), t)
    else match FindById(t, id)
      case None => Step(Reply(404, "Project not found"), t)
      case Some(d) =>
        Step(Sent(Response(200, Envelope("Project deleted successfully", "deletedProject", ProjectRecord(d)))),
             DeleteById(t, id))
  }

  /** A successful create keeps the collection consistent: fresh well-formed id, schema-valid fields, unused name. */
  lemma CreateKeepsConsistent(t: Table<Project>, isValidId: Id -> bool, body: Option<Body>, newId: Id, now: Time)
    requires Consistent(t, isValidId) && isValidId(newId) && !HasId(t, newId)
    ensures Consistent(CreateSpec(t, body, newId, now).table, isValidId)
  {
    var out := CreateSpec(t, body, newId, now);
    if out.outcome.response.status == 201 {
      var d := out.table[|t|];
      assert out.table == t + [d];
      InsertKeyed(t, d, isValidId);
      var p := Build(CreateFields(body.value)).value;
      assert d.fields == p;
    }
  }

  /** An edit keeps the collection consistent: the unique index and the validators guard the new fields. */
  lemma EditKeepsConsistent(t: Table<Project>, isValidId: Id -> bool, id: Id, body: Option<Body>, now: Time)
    requires Consistent(t, isValidId)
    ensures Consistent(EditSpec(t, isValidId, id, body, now).table, isValidId)
  {
    var out := EditSpec(t, isValidId, id, body, now);
    if out.outcome.response.status == 200 {
      var d := out.outcome.response.body.record.project;
      UpdateKeyed(t, id, d, isValidId);
      var r := out.table;
      forall i, j | 0 <= i < j < |r| ensures r[i].fields.name != r[j].fields.name {
        if t[i].id == id {
          assert t[j].id != id;
        } else if t[j].id == id {
          assert t[i].id != id;
        }
      }
    }
  }

  /** A delete keeps the collection consistent. */
  lemma DeleteKeepsConsistent(t: Table<Project>, isValidId: Id -> bool, id: Id)
    requires Consistent(t, isValidId)
    ensures Consistent(DeleteSpec(t, isValidId, id).table, isValidId)
  {
    DeleteKeyed(t, id, isValidId);
    var k := Position(t, id);
    if k < |t| {
      SpliceAt(t, k);
    }
  }

  /** Two creates with the same name: the first is accepted, the second is refused as a duplicate. */
  lemma SecondCreateWithSameNameIsRefused(t: Table<Project>, body: Option<Body>, id1: Id, id2: Id, now1: Time, now2: Time)
    requires CreateSpec(t, body, id1, now1).outcome.response.status == 201
    ensures CreateSpec(CreateSpec(t, body, id1, now1).table, body, id2, now2).outcome
      == Reply(400, "Project name must be unique")
  {
    var t1 := CreateSpec(t, body, id1, now1).table;
    var d := t1[|t|];
    assert t1[|t|].fields.name == d.fields.name;
    assert NameInUse(t1, body.value);
  }

  /**
    Two identical creates with a fresh name, a non-empty description and a
    deadline: the first is answered 201, the second is refused as a duplicate.
  */
  lemma CreateThenDuplicate(t: Table<Project>, name: string, deadline: Value, description: string,
                            id1: Id, id2: Id, now1: Time, now2: Time)
    requires name != "" && description != "" && Truthy(deadline) && !NameTaken(t, name)
    ensures var body := Some(map["name" := Str(name), "deadline" := deadline, "description" := Str(description)]);
      var first := CreateSpec(t, body, id1, now1);
      && first.outcome.response.status == 201
      && first.table == t + [Doc(id1, Project(name, deadline, description, DefaultStatus), now1, now1)]
      && CreateSpec(first.table, body, id2, now2).outcome == Reply(400, "Project name must be unique")
  {
    var b := map["name" := Str(name), "deadline" := deadline, "description" := Str(description)];
    assert CreateFields(b) == b;
    assert !NameInUse(t, b);
    SecondCreateWithSameNameIsRefused(t, Some(b), id1, id2, now1, now2);
  }

  /** Renaming a project to a non-empty name no other project holds succeeds and changes only the name and `updatedAt`. */
  lemma RenameIsApplied(t: Table<Project>, isValidId: Id -> bool, id: Id, name: string, now: Time)
    requires isValidId(id) && HasId(t, id)
    requires name != "" && !NameTakenByOther(t, name, id)
    ensures var out := EditSpec(t, isValidId, id, Some(map["name" := Str(name)]), now);
      var old_ := FindById(t, id).value;
      var d := old_.(fields := old_.fields.(name := name), updatedAt := now);
      && out.outcome == Sent(Response(200, Envelope("Project updated successfully", "updatedProject", ProjectRecord(d))))
      && out.table == UpdateById(t, id, d)
  {
    var old_ := FindById(t, id).value;
    assert Apply(old_.fields, map["name" := Str(name)]) == Ok(old_.fields.(name := name));
  }

  /** `CreateProject` ignores every body key except name, deadline and description. */
  lemma CreateIgnoresOtherKeys(t: Table<Project>, b1: Body, b2: Body, newId: Id, now: Time)
    requires forall k :: k in ["name", "deadline", "description"] ==> k in b1 && k in b2 && b1[k] == b2[k]
    ensures CreateSpec(t, Some(b1), newId, now) == CreateSpec(t, Some(b2), newId, now)
  {
    assert "name" in b1 && "name" in b2;
    assert CreateFields(b1) == CreateFields(b2);
  }

  /** A created project can be read back by its id, and after it is deleted it is no longer found. */
  lemma CreateReadDelete(t: Table<Project>, isValidId: Id -> bool, body: Option<Body>, newId: Id, now: Time)
    requires Consistent(t, isValidId) && isValidId(newId) && !HasId(t, newId)
    requires CreateSpec(t, body, newId, now).outcome.response.status == 201
    ensures var created := CreateSpec(t, body, newId, now);
      && GetProjectById(created.table, isValidId, newId) == Response(200, created.outcome.response.body)
      && var deleted := DeleteSpec(created.table, isValidId, newId);
      && deleted.outcome.response.status == 200
      && deleted.outcome.response.body.record == created.outcome.response.body.record
      && GetProjectById(deleted.table, isValidId, newId) == Response(404, Message("Project not found"))
  {
    var created := CreateSpec(t, body, newId, now);
    var d := created.table[|t|];
    assert created.table == t + [d];
    InsertKeyed(t, d, isValidId);
    assert FindById(created.table, newId) == Some(d);
    assert GetProjectById(created.table, isValidId, newId) == Response(200, Document(ProjectRecord(d)));
    var deleted := DeleteSpec(created.table, isValidId, newId);
    assert deleted.outcome.response.body.record == ProjectRecord(d);
  }

  /** Deleting the same project twice: the second attempt finds nothing. */
  lemma DeleteTwice(t: Table<Project>, isValidId: Id -> bool, id: Id)
    requires Consistent(t, isValidId)
    requires DeleteSpec(t, isValidId, id).outcome.response.status == 200
    ensures DeleteSpec(DeleteSpec(t, isValidId, id).table, isValidId, id).outcome == Reply(404, "Project not found")
  {
  }

  /** The body check comes before the id check: an empty body is refused whatever the id. */
  lemma EditChecksBodyFirst(t: Table<Project>, isValidId: Id -> bool, id: Id, now: Time)
    requires !isValidId(id)
    ensures EditSpec(t, isValidId, id, Some(map[]), now).outcome == Reply(400, "Request body cannot be empty")
    ensures EditSpec(t, isValidId, id, None, now).outcome == Reply(400, "Request body cannot be empty")
  {
  }

  /** Renaming a project to a name another project holds is refused and changes nothing. */
  lemma RenameToTakenNameIsRefused(t: Table<Project>, isValidId: Id -> bool, id: Id, other: nat, name: string, now: Time)
    requires isValidId(id) && HasId(t, id)
    requires other < |t| && t[other].id != id && t[other].fields.name == name
    ensures var out := EditSpec(t, isValidId, id, Some(map["name" := Str(name)]), now);
      out.outcome.response.status == 400 && out.table == t
  {
    var out := EditSpec(t, isValidId, id, Some(map["name" := Str(name)]), now);
    if out.outcome.response.status == 200 {
      assert NameTakenByOther(t, name, id);
    }
  }

  /** `CreateProject` on the store. */
  method CreateProject(db: Database, body: Option<Body>, newId: Id, now: Time) returns (r: Outcome)
    requires db.Valid() && db.isValidId(newId) && !HasId(db.projects, newId)
    modifies db`projects
    ensures db.Valid()
    ensures Step(r, db.projects) == CreateSpec(old(db.projects), body, newId, now)
  {
    CreateKeepsConsistent(db.projects, db.isValidId, body, newId, now);
    if NoBody(body) {
      return Reply(400, "Body is required");
    }
    var b := body.value;
    if !Has(b, "name") || !Has(b, "deadline") || !Has(b, "description") {
      return Reply(400, "Missing fields in the body");
    }
    if NameInUse(db.projects, b) {
      return Reply(400, "Project name must be unique");
    }
    var created := Build(CreateFields(b));
    if created.Err? {
      return Reply(400, MessageOf(created.error));
    }
    var d := Doc(newId, created.value, now, now);
    db.projects := db.projects + [d];
    r := Sent(Response(201, Document(ProjectRecord(d))));
  }

  /** `EditProject` on the store. */
  method EditProject(db: Database, id: Id, body: Option<Body>, now: Time) returns (r: Outcome)
    requires db.Valid()
    modifies db`projects
    ensures db.Valid()
    ensures Step(r, db.projects) == EditSpec(old(db.projects), db.isValidId, id, body, now)
  {
    EditKeepsConsistent(db.projects, db.isValidId, id, body, now);
    if NoBody(body) {
      return Reply(400, "Request body cannot be empty");
    }
    if !db.isValidId(id) {
      return Reply(400, "Invalid project ID");
    }
    var found := FindById(db.projects, id);
    if found.None? {
      return Reply(404, "Project not found");
    }
    var applied := Apply(found.value.fields, body.value);
    if applied.Err? {
      return Reply(400, MessageOf(applied.error));
    }
    var p := applied.value;
    if NameTakenByOther(db.projects, p.name, id) {
      return Reply(400, MessageOf(DuplicateKey("name", p.name)));
    }
    var d := found.value.(fields := p, updatedAt := now);
    db.projects := UpdateById(db.projects, id, d);
    r := Sent(Response(200, Envelope("Project updated successfully", "updatedProject", ProjectRecord(d))));
  }

  /** `DeleteProject` on the store. */
  method DeleteProject(db: Database, id: Id) returns (r: Outcome)
    requires db.Valid()
    modifies db`projects
    ensures db.Valid()
    ensures Step(r, db.projects) == DeleteSpec(old(db.projects), db.isValidId, id)
  {
    DeleteKeepsConsistent(db.projects, db.isValidId, id);
    if !db.isValidId(id) {
      return Reply(400, MessageOf(CastFailed("_id", "ObjectId")));
    }
    var found := FindById(db.projects, id);
    if found.None? {
      return Reply(404, "Project not found");
    }
    db.projects := DeleteById(db.projects, id);
    r := Sent(Response(200, Envelope("Project deleted successfully", "deletedProject", ProjectRecord(found.value))));
  }
}

=== FILE: project_model.dfy ===
/**
  The Project schema: `name` (required, unique), `deadline` (required date),
  `description` (required), `status` (one of active, inactive, completed,
  default active), with automatic timestamps.
*/
module ProjectModel {
  import opened Wrappers
  import opened Json
  import opened Tables
  import opened Schema

  datatype Status = Active | Inactive | Completed

  /** The `enum` list of the `status` path. */
  const StatusNames: seq<string> := ["active", "inactive", "completed"]

  const DefaultStatus: Status := Active

  function StatusName(s: Status): (text: string)
    ensures text in StatusNames
  {
    match s
    case Active => "active"
    case Inactive => "inactive"
    case Completed => "completed"
  }

  function ParseStatus(text: string): (r: Option<Status>)
    ensures r.Some? <==> text in StatusNames
    ensures r.Some? ==> StatusName(r.value) == text
  {
    if text == "active" then Some(Active)
    else if text == "inactive" then Some(Inactive)
    else if text == "completed" then Some(Completed)
    else None
  }

  /** Every status has a name in the enum list, and reading the name back gives the same status. */
  lemma StatusRoundTrip(s: Status)
    ensures ParseStatus(StatusName(s)) == Some(s)
  {
  }

  /** A stored project's schema fields. `deadline` is kept as the value that was sent. */
  datatype Project = Project(name: string, deadline: Value, description: string, status: Status)

  /** The paths with `required: true`, in schema order. */
  const RequiredPaths: seq<string> := ["name", "deadline", "description"]

  /** What the validators guarantee of every stored project. */
  ghost predicate Conforms(p: Project)
  {
    p.name != "" && p.description != "" && p.deadline != Null && p.deadline != Str("")
  }

  /** The `status` path: a member of the enum list. */
  function StatusOf(v: Value): (r: Result<Status, SchemaError>)
    ensures r.Ok? <==> AsString(v).Some? && AsString(v).value in StatusNames
    ensures r.Ok? ==> AsString(v) == Some(StatusName(r.value))
  {
    var text :- EnumString("status", Some(v), StatusNames, false);
    Ok(ParseStatus(text).value)
  }

  /** `Project.create(doc)`: casts and validates every path, in schema order, and fills in the default status. */
  function Build(doc: Body): (r: Result<Project, SchemaError>)
    ensures r.Ok? ==> Conforms(r.value)
    ensures r.Ok? ==> "name" in doc && AsString(doc["name"]) == Some(r.value.name)
    ensures r.Ok? ==> "deadline" in doc && r.value.deadline == doc["deadline"]
    ensures r.Ok? ==> "description" in doc && AsString(doc["description"]) == Some(r.value.description)
    ensures r.Ok? && "status" !in doc ==> r.value.status == DefaultStatus
    ensures r.Ok? && "status" in doc ==> AsString(doc["status"]) == Some(StatusName(r.value.status))
    ensures (exists p :: p in RequiredPaths && p !in doc) ==> r.Err?
    ensures r.Ok? <==>
      && "name" in doc && StringAccepted(doc["name"])
      && "deadline" in doc && DateAccepted(doc["deadline"])
      && "description" in doc && StringAccepted(doc["description"])
      && ("status" in doc ==> EnumAccepted(doc["status"], StatusNames))
  {
    var name :- RequiredString("name", Lookup(doc, "name"));
    var deadline :- RequiredDate("deadline", Lookup(doc, "deadline"));
    var description :- RequiredString("description", Lookup(doc, "description"));
    var status :- if "status" in doc then StatusOf(doc["status"]) else Ok(DefaultStatus);
    Ok(Project(name, deadline, description, status))
  }

  /**
    `findByIdAndUpdate(id, update, { runValidators: true })` on one project:
    every schema path the update names is cast and validated and replaces the
    stored value; every other path keeps its value; keys that are not schema
    paths are dropped.
  */
  function Apply(p: Project, update: Body): (r: Result<Project, SchemaError>)
    ensures r.Ok? && "name" in update ==> AsString(update["name"]) == Some(r.value.name)
    ensures r.Ok? && "name" !in update ==> r.value.name == p.name
    ensures r.Ok? && "deadline" in update ==> r.value.deadline == update["deadline"]
    ensures r.Ok? && "deadline" !in update ==> r.value.deadline == p.deadline
    ensures r.Ok? && "description" in update ==> AsString(update["description"]) == Some(r.value.description)
    ensures r.Ok? && "description" !in update ==> r.value.description == p.description
    ensures r.Ok? && "status" in update ==> AsString(update["status"]) == Some(StatusName(r.value.status))
    ensures r.Ok? && "status" !in update ==> r.value.status == p.status
    ensures r.Ok? && Conforms(p) ==> Conforms(r.value)
    ensures (forall k :: k in update ==> k !in ["name", "deadline", "description", "status"]) ==> r == Ok(p)
    ensures r.Ok? <==>
      && ("name" in update ==> StringAccepted(update["name"]))
      && ("deadline" in update ==> DateAccepted(update["deadline"]))
      && ("description" in update ==> StringAccepted(update["description"]))
      && ("status" in update ==> EnumAccepted(update["status"], StatusNames))
  {
    var name :- if "name" in update then RequiredString("name", Some(update["name"])) else Ok(p.name);
    var deadline :- if "deadline" in update then RequiredDate("deadline", Some(update["deadline"])) else Ok(p.deadline);
    var description :- if "description" in update then RequiredString("description", Some(update["description"])) else Ok(p.description);
    var status :- if "status" in update then StatusOf(update["status"]) else Ok(p.status);
    Ok(Project(name, deadline, description, status))
  }

  /** Sending the same update twice leaves the project as the first one did. */
  lemma ApplyIdempotent(p: Project, update: Body)
    requires Apply(p, update).Ok?
    ensures Apply(Apply(p, update).value, update) == Apply(p, update)
  {
  }

  /**
    An update that names every schema path gives the record a create from the
    same body would give, whatever the project held before.
  */
  lemma FullUpdateIsBuild(p: Project, update: Body)
    requires forall k :: k in ["name", "deadline", "description", "status"] ==> k in update
    requires Build(update).Ok?
    ensures Apply(p, update) == Build(update)
  {
    assert Lookup(update, "name") == Some(update["name"]);
    assert Lookup(update, "deadline") == Some(update["deadline"]);
    assert Lookup(update, "description") == Some(update["description"]);
  }

  /** The unique index on `name`: no two stored projects share a name. */
  ghost predicate UniqueNames(t: Table<Project>)
  {
    forall i, j :: 0 <= i < j < |t| ==> t[i].fields.name != t[j].fields.name
  }

  /** `Project.findOne({ name })` finds something. */
  predicate NameTaken(t: Table<Project>, name: string)
  {
    exists i :: 0 <= i < |t| && t[i].fields.name == name
  }

  /** What holds of the projects collection between requests. */
  ghost predicate Consistent(t: Table<Project>, isValidId: Id -> bool)
  {
    && Keyed(t, isValidId)
    && UniqueNames(t)
    && forall i :: 0 <= i < |t| ==> Conforms(t[i].fields)
  }

  /** A project other than `id` already holds `name`: the unique index rejects the write. */
  predicate NameTakenByOther(t: Table<Project>, name: string, id: Id)
  {
    exists i :: 0 <= i < |t| && t[i].id != id && t[i].fields.name == name
  }
}

=== FILE: schema.dfy ===
/**
  What the document layer does with a JSON value before it stores it in a
  schema path: the cast to the path's type, the `required` validator and the
  `enum` validator, and the unique index's duplicate-key rejection. Each
  failure is a `SchemaError`; its text names the failing path.
*/
module Schema {
  import opened Wrappers
  import opened Json

  datatype SchemaError =
    | Required(path: string)
    | NotInEnum(path: string, value: string)
    | CastFailed(path: string, kind: string)
    | DuplicateKey(path: string, value: string)

  /** The `message` of the error object the document layer throws. */
  function MessageOf(e: SchemaError): (text: string)
    ensures |text| > 0
  {
    match e
    case Required(p) => "Path `" + p + "` is required."
    case NotInEnum(p, v) => "`" + v + "` is not a valid enum value for path `" + p + "`."
    case CastFailed(p, k) => "Cast to " + k + " failed at path \"" + p + "\""
    case DuplicateKey(p, v) => "E11000 duplicate key error dup key: { " + p + ": \"" + v + "\" }"
  }

  /** The cast to a String path: strings as they are, numbers and booleans as their text. */
  function AsString(v: Value): (r: Option<string>)
    ensures v.Str? ==> r == Some(v.s)
    ensures v.Null? || v.Array? || v.Object? ==> r == None
  {
    match v
    case Str(s) => Some(s)
    case Num(n) => Some(DecimalString(n))
    case Bool(b) => Some(if b then "true" else "false")
    case _ => None
  }

  /** A value a required String path accepts: it casts to a non-empty text. */
  predicate StringAccepted(v: Value)
  {
    AsString(v).Some? && AsString(v).value != ""
  }

  /** A value a required Date path accepts: anything but `null` and `""`. */
  predicate DateAccepted(v: Value)
  {
    v != Null && v != Str("")
  }

  /** A value an ObjectId path accepts: a text of the identifier shape. */
  predicate IdAccepted(v: Value, isValidId: string -> bool)
  {
    v.Str? && isValidId(v.s)
  }

  /** A value an `enum` path accepts: it casts to one of the listed names. */
  predicate EnumAccepted(v: Value, allowed: seq<string>)
  {
    AsString(v).Some? && AsString(v).value in allowed
  }

  /** A String path with `required: true`: `null`, an absent value and `""` fail the required validator. */
  function RequiredString(path: string, v: Option<Value>): (r: Result<string, SchemaError>)
    ensures r.Ok? <==> v.Some? && AsString(v.value).Some? && AsString(v.value).value != ""
    ensures r.Ok? ==> Some(r.value) == AsString(v.value) && r.value != ""
    ensures r.Err? ==> r.error.path == path
  {
    if v.None? || v.value.Null? then Err(Required(path))
    else match AsString(v.value)
      case None => Err(CastFailed(path, "string"))
      case Some(s) => if s == "" then Err(Required(path)) else Ok(s)
  }

  /** A String path with an `enum` list (and `required` when `required` is set). */
  function EnumString(path: string, v: Option<Value>, allowed: seq<string>, required: bool): (r: Result<string, SchemaError>)
    requires "" !in allowed
    ensures r.Ok? <==> v.Some? && AsString(v.value).Some? && AsString(v.value).value in allowed
    ensures r.Ok? ==> Some(r.value) == AsString(v.value) && r.value in allowed
    ensures r.Err? ==> r.error.path == path
  {
    if v.None? || v.value.Null? then
      if required then Err(Required(path)) else Err(NotInEnum(path, "null"))
    else match AsString(v.value)
      case None => Err(CastFailed(path, "string"))
      case Some(s) =>
        if s == "" && required then Err(Required(path))
        else if s !in allowed then Err(NotInEnum(path, s))
        else Ok(s)
  }

  /** An ObjectId path: only a string of the identifier shape casts. */
  function ObjectIdCast(path: string, v: Value, isValidId: string -> bool): (r: Result<string, SchemaError>)
    ensures r.Ok? <==> v.Str? && isValidId(v.s)
    ensures r.Ok? ==> r.value == v.s
    ensures r.Err? ==> r.error.path == path
  {
    if v.Str? && isValidId(v.s) then Ok(v.s) else Err(CastFailed(path, "ObjectId"))
  }

  /** An ObjectId path with `required: true`. */
  function RequiredObjectId(path: string, v: Option<Value>, isValidId: string -> bool): (r: Result<string, SchemaError>)
    ensures r.Ok? <==> v.Some? && v.value.Str? && isValidId(v.value.s)
    ensures r.Ok? ==> r.value == v.value.s
    ensures r.Err? ==> r.error.path == path
  {
    if v.None? || v.value.Null? then Err(Required(path)) else ObjectIdCast(path, v.value, isValidId)
  }

  /** A Date path with `required: true`. The date itself is kept as the value that was sent. */
  function RequiredDate(path: string, v: Option<Value>): (r: Result<Value, SchemaError>)
    ensures r.Ok? <==> v.Some? && v.value != Null && v.value != Str("")
    ensures r.Ok? ==> r.value == v.value
    ensures r.Err? ==> r.error == Required(path)
  {
    if v.None? || v.value == Null || v.value == Str("") then Err(Required(path)) else Ok(v.value)
  }

  /** The value a body gives for a path, if any. */
  function Lookup(body: Body, path: string): (v: Option<Value>)
    ensures v.Some? <==> path in body
    ensures v.Some? ==> v.value == body[path]
  {
    if path in body then Some(body[path]) else None
  }
}

=== FILE: store.dfy ===
/**
  The document store the four controllers share: one collection per
  resource, and the storage engine's identifier-shape check
  (`ObjectId.isValid`), which this model leaves uninterpreted.
*/
module Store {
  import opened Tables
  import opened ProjectModel
  import opened ArchitectureModel
  import opened LinkModel
  import opened TeamMemberModel

  class Database {
    /** The identifier-shape check; every theorem here holds whatever it accepts. */
    const isValidId: Id -> bool

    var projects: Table<Project>
    var architectures: Table<Architecture>
    var links: Table<Link>
    var teamMembers: Table<TeamMember>

    /**
      What holds between requests: identifiers are unique and well-formed in
      every collection, every stored document satisfies its schema, and the
      unique index keeps project names distinct.
    */
    ghost predicate Valid()
      reads this
    {
      && ProjectModel.Consistent(projects, isValidId)
      && ArchitectureModel.Consistent(architectures, isValidId)
      && LinkModel.Consistent(links, isValidId)
      && TeamMemberModel.Consistent(teamMembers, isValidId)
    }

    constructor (isValidId: Id -> bool)
      ensures Valid()
      ensures this.isValidId == isValidId
      ensures projects == [] && architectures == [] && links == [] && teamMembers == []
    {
      this.isValidId := isValidId;
      projects, architectures, links, teamMembers := [], [], [], [];
    }
  }
}

=== FILE: tables.dfy ===
/**
  A collection of the document store, in natural (insertion) order, and the
  by-identifier primitives the controllers use: `findById`,
  `findByIdAndDelete` and `findByIdAndUpdate`. Each of them acts on the first
  document whose `_id` matches, which is the only one while identifiers are
  unique.
*/
module Tables {
  import opened Wrappers

  /** A document identifier, as the text of the route parameter. */
  type Id = string

  /** A clock reading for the automatic timestamps; never computed with. */
  type Time = int

  /** A stored document: its `_id`, its schema fields and its timestamps. */
  datatype Doc<T> = Doc(id: Id, fields: T, createdAt: Time, updatedAt: Time)

  type Table<T> = seq<Doc<T>>

  predicate HasId<T>(t: Table<T>, id: Id)
  {
    exists i :: 0 <= i < |t| && t[i].id == id
  }

  ghost predicate UniqueIds<T>(t: Table<T>)
  {
    forall i, j :: 0 <= i < j < |t| ==> t[i].id != t[j].id
  }

  /** Identifiers are unique and all have the storage engine's shape. */
  ghost predicate Keyed<T>(t: Table<T>, isValidId: Id -> bool)
  {
    && UniqueIds(t)
    && forall i :: 0 <= i < |t| ==> isValidId(t[i].id)
  }

  /** The index of the first document with identifier `id`, or `|t|` if there is none. */
  function Position<T>(t: Table<T>, id: Id): (k: nat)
    ensures k <= |t|
    ensures forall i :: 0 <= i < k ==> t[i].id != id
    ensures k < |t| ==> t[k].id == id
  {
    if |t| == 0 then 0
    else if t[0].id == id then 0
    else 1 + Position(t[1..], id)
  }

  /** `Model.findById(id)`. */
  function FindById<T>(t: Table<T>, id: Id): (r: Option<Doc<T>>)
    ensures r.Some? <==> HasId(t, id)
    ensures r.Some? ==> r.value in t && r.value.id == id
    ensures UniqueIds(t) ==> forall i :: 0 <= i < |t| && t[i].id == id ==> r == Some(t[i])
  {
    var k := Position(t, id);
    if k < |t| then Some(t[k]) else None
  }

  /** `Model.findByIdAndDelete(id)`: removes the first document with that identifier. */
  function DeleteById<T>(t: Table<T>, id: Id): (r: Table<T>)
    ensures !HasId(t, id) ==> r == t
    ensures HasId(t, id) ==> |r| == |t| - 1
    ensures forall i :: 0 <= i < |r| ==> r[i] in t
    ensures forall i :: 0 <= i < |t| && t[i].id != id ==> t[i] in r
    ensures UniqueIds(t) ==> UniqueIds(r) && !HasId(r, id)
  {
    var k := Position(t, id);
    if k < |t| then
      SpliceAt(t, k);
      var r := t[..k] + t[k + 1..];
      assert forall i :: 0 <= i < |r| ==> r[i] in t by {
        forall i | 0 <= i < |r| ensures r[i] in t {
          assert r[i] == t[if i < k then i else i + 1];
        }
      }
      assert forall i :: 0 <= i < |t| && t[i].id != id ==> t[i] in r by {
        forall i | 0 <= i < |t| && t[i].id != id ensures t[i] in r {
          assert t[i] == r[if i < k then i else i - 1];
        }
      }
      r
    else t
  }

  /** Removing the document at index `k` keeps every other one, in order. */
  lemma SpliceAt<T>(t: Table<T>, k: nat)
    requires k < |t|
    ensures var r := t[..k] + t[k + 1..];
      && |r| == |t| - 1
      && (forall i :: 0 <= i < |r| ==> r[i] == t[if i < k then i else i + 1])
      && (forall i :: 0 <= i < |t| && i != k ==> t[i] == r[if i < k then i else i - 1])
      && (UniqueIds(t) ==> UniqueIds(r) && forall i :: 0 <= i < |r| ==> r[i].id != t[k].id)
  {
    var r := t[..k] + t[k + 1..];
    SpliceIndex(t, k);
    forall i | 0 <= i < |t| && i != k ensures t[i] == r[if i < k then i else i - 1] {
      var j := if i < k then i else i - 1;
      assert r[j] == t[if j < k then j else j + 1];
    }
    if UniqueIds(t) {
      forall i, j | 0 <= i < j < |r| ensures r[i].id != r[j].id {
        assert r[i] == t[if i < k then i else i + 1];
        assert r[j] == t[if j < k then j else j + 1];
      }
      forall i | 0 <= i < |r| ensures r[i].id != t[k].id {
        assert r[i] == t[if i < k then i else i + 1];
      }
    }
  }

  /** Where each document of the spliced table comes from. */
  lemma SpliceIndex<T>(t: Table<T>, k: nat)
    requires k < |t|
    ensures var r := t[..k] + t[k + 1..];
      && |r| == |t| - 1
      && forall i :: 0 <= i < |r| ==> r[i] == t[if i < k then i else i + 1]
  {
    var r := t[..k] + t[k + 1..];
    forall i | 0 <= i < |r| ensures r[i] == t[if i < k then i else i + 1] {
      if i < k {
        assert r[i] == t[..k][i];
      } else {
        assert r[i] == t[k + 1..][i - k];
      }
    }
  }

  /** `Model.findByIdAndUpdate(id, ...)`: puts `d` in the place of the first document with that identifier. */
  function UpdateById<T>(t: Table<T>, id: Id, d: Doc<T>): (r: Table<T>)
    ensures |r| == |t|
    ensures !HasId(t, id) ==> r == t
    ensures HasId(t, id) ==> d in r
    ensures UniqueIds(t) ==> forall i :: 0 <= i < |t| ==> r[i] == (if t[i].id == id then d else t[i])
    ensures UniqueIds(t) && d.id == id ==> UniqueIds(r)
  {
    var k := Position(t, id);
    if k < |t| then assert t[k := d][k] == d; t[k := d] else t
  }

  /** Appending a document with a fresh, well-formed identifier keeps the table keyed and makes it findable. */
  lemma InsertKeyed<T>(t: Table<T>, d: Doc<T>, isValidId: Id -> bool)
    requires Keyed(t, isValidId) && isValidId(d.id) && !HasId(t, d.id)
    ensures Keyed(t + [d], isValidId)
    ensures FindById(t + [d], d.id) == Some(d)
  {
    var r := t + [d];
    forall i, j | 0 <= i < j < |r| ensures r[i].id != r[j].id {
      if j == |t| {
        assert r[i] == t[i];
      }
    }
    assert r[|t|] == d;
  }

  /** A deletion keeps the table keyed. */
  lemma DeleteKeyed<T>(t: Table<T>, id: Id, isValidId: Id -> bool)
    requires Keyed(t, isValidId)
    ensures Keyed(DeleteById(t, id), isValidId)
  {
    var r := DeleteById(t, id);
    forall i | 0 <= i < |r| ensures isValidId(r[i].id) {
      var j :| 0 <= j < |t| && t[j] == r[i];
    }
  }

  /** Replacing a document by one with the same identifier keeps the table keyed. */
  lemma UpdateKeyed<T>(t: Table<T>, id: Id, d: Doc<T>, isValidId: Id -> bool)
    requires Keyed(t, isValidId) && d.id == id
    ensures Keyed(UpdateById(t, id, d), isValidId)
  {
  }
}

=== FILE: team_member_controller.dfy ===
/**
  The TeamMember handlers. Like the Link handlers they run inside the
  asynchronous wrapper: errors the document layer throws are raised to the
  application's error handler, and the handler's own refusals go out with
  a `{ message }` body.
*/
module TeamMemberController {
  import opened Wrappers
  import opened Json
  import opened Tables
  import opened Schema
  import opened TeamMemberModel
  import ProjectModel
  import opened Http
  import opened Store
  import GlobalErrorHandler

  /** `!name || !ofProject || !role`. */
  predicate MissingFields(b: Body)
  {
    !Has(b, "name") || !Has(b, "ofProject") || !Has(b, "role")
  }

  /** `createTeamMember`: the whole body goes to `TeamMember.create`; the referenced project is not looked up. */
  function CreateSpec(t: Table<TeamMember>, isValidId: Id -> bool, body: Option<Body>, newId: Id, now: Time): (out: Step<TeamMember>)
    ensures out.outcome.Sent? || out.outcome.Raised?
    ensures !(out.outcome.Sent? && out.outcome.response.status == 201) ==> out.table == t
    ensures NoBody(body) ==> out.outcome == Reply(400, "Request body cannot be empty")
    ensures !NoBody(body) && MissingFields(body.value) ==> out.outcome == Reply(400, "Missing required fields")
    ensures out.outcome.Raised? ==> out.outcome.fault.status == 0 && out.outcome.fault.message != ""
    ensures out.outcome.Sent? ==> out.outcome.response.status in {201, 400}
    ensures !NoBody(body) && !MissingFields(body.value) ==>
      var built := Build(body.value, isValidId);
      && (built.Err? ==> out.outcome == Raised(Thrown(built.error)))
      && (built.Ok? ==> out.outcome.Sent? && out.outcome.response.status == 201)
    ensures out.outcome.Sent? && out.outcome.response.status == 201 ==>
      && body.Some? && !MissingFields(body.value)
      && |out.table| == |t| + 1 && out.table[..|t|] == t
      && var d := out.table[|t|];
      && out.outcome.response.body == Envelope("Team member created successfully", "data", TeamMemberRecord(d))
      && d.id == newId && d.createdAt == now && d.updatedAt == now
      && Build(body.value, isValidId) == Ok(d.fields)
  {
    if NoBody(body) then Step(Reply(400, "Request body cannot be empty"), t)
    else if MissingFields(body.value) then Step(Reply(400, "Missing required fields"), t)
    else match Build(body.value, isValidId)
      case Err(e) => Step(Raised(Thrown(e)), t)
      case Ok(m) =>
        var d := Doc(newId, m, now, now);
        Step(Sent(Response(201, Envelope("Team member created successfully", "data", TeamMemberRecord(d)))), t + [d])
  }

  /** `deleteTeamMember`. */
  function DeleteSpec(t: Table<TeamMember>, isValidId: Id -> bool, id: Id): (out: Step<TeamMember>)
    ensures !isValidId(id) ==> out == Step(Reply(400, "Invalid TeamMember ID"), t)
    ensures isValidId(id) && !HasId(t, id) ==> out == Step(Reply(404, "TeamMember not found"), t)
    ensures isValidId(id) && HasId(t, id) ==>
      out == Step(Reply(200, "TeamMember deleted successfully"), DeleteById(t, id))
  {
    if !isValidId(id) then Step(Reply(400, "Invalid TeamMember ID"), t)
    else if !HasId(t, id) then Step(Reply(404, "TeamMember not found"), t)
    else Step(Reply(200, "TeamMember deleted successfully"), DeleteById(t, id))
  }

  /**
    `updateTeamMember`: the found member's `_id` is the filter of the update;
    there is no body check, so an absent or empty body is an empty update.
  */
  function UpdateSpec(t: Table<TeamMember>, isValidId: Id -> bool, id: Id, body: Option<Body>, now: Time): (out: Step<TeamMember>)
    ensures out.outcome.Sent? || out.outcome.Raised?
    ensures !(out.outcome.Sent? && out.outcome.response.status == 200) ==> out.table == t
    ensures !isValidId(id) ==> out.outcome == Reply(400, "Invalid TeamMember ID")
    ensures isValidId(id) && !HasId(t, id) ==> out.outcome == Reply(404, "TeamMember not found")
    ensures out.outcome.Raised? ==> out.outcome.fault.status == 0 && out.outcome.fault.message != ""
    ensures out.outcome.Sent? ==> out.outcome.response.status in {200, 400, 404}
    ensures isValidId(id) && HasId(t, id) ==>
      var applied := Apply(FindById(t, id).value.fields, UpdateOf(body), isValidId);
      && (applied.Err? ==> out.outcome == Raised(Thrown(applied.error)))
      && (applied.Ok? ==> out.outcome.Sent? && out.outcome.response.status == 200)
    ensures out.outcome.Sent? && out.outcome.response.status == 200 ==>
      && isValidId(id) && HasId(t, id)
      && var old_ := FindById(t, id).value;
      && out.outcome.response.body.Envelope?
      && out.outcome.response.body.message == "TeamMember was updated"
      && out.outcome.response.body.key == "data"
      && out.outcome.response.body.record.TeamMemberRecord?
      && var d := out.outcome.response.body.record.member;
      && d.id == id && d.createdAt == old_.createdAt && d.updatedAt == now
      && Apply(old_.fields, UpdateOf(body), isValidId) == Ok(d.fields)
      && out.table == UpdateById(t, id, d)
  {
    if !isValidId(id) then Step(Reply(400, "Invalid TeamMember ID"), t)
    else match FindById(t, id)
      case None => Step(Reply(404, "TeamMember not found"), t)
      case Some(current) =>
        match Apply(current.fields, UpdateOf(body), isValidId)
        case Err(e) => Step(Raised(Thrown(e)), t)
        case Ok(m) =>
          var d := current.(fields := m, updatedAt := now);
          Step(Sent(Response(200, Envelope("TeamMember was updated", "data", TeamMemberRecord(d)))), UpdateById(t, id, d))
  }

  /** `TeamMember.find({ ofProject: pid })`: the project's members in stored order. */
  function MembersOf(t: Table<TeamMember>, pid: Id): (r: Table<TeamMember>)
    ensures |r| <= |t|
    ensures forall d :: d in r <==> d in t && d.fields.ofProject == pid
  {
    if |t| == 0 then []
    else (if t[0].fields.ofProject == pid then [t[0]] else []) + MembersOf(t[1..], pid)
  }

  /** Each member of the project is listed exactly as many times as it is stored, and no other member is. */
  lemma {:induction false} MembersOfCounts(t: Table<TeamMember>, pid: Id)
    ensures forall d :: multiset(MembersOf(t, pid))[d] == if d.fields.ofProject == pid then multiset(t)[d] else 0
  {
    if |t| > 0 {
      MembersOfCounts(t[1..], pid);
      assert t == [t[0]] + t[1..];
    }
  }

  /** Filtering by project distributes over concatenation, so the stored order is kept. */
  lemma {:induction false} MembersOfAppend(a: Table<TeamMember>, b: Table<TeamMember>, pid: Id)
    ensures MembersOf(a + b, pid) == MembersOf(a, pid) + MembersOf(b, pid)
  {
    if |a| > 0 {
      assert (a + b)[1..] == a[1..] + b;
      MembersOfAppend(a[1..], b, pid);
    } else {
      assert a + b == b;
    }
  }

  /** `getProjectTeamMembers`: the id must name a stored project. */
  function GetProjectTeamMembers(projects: Table<ProjectModel.Project>, members: Table<TeamMember>, isValidId: Id -> bool, id: Id): (r: Response)
    ensures !isValidId(id) ==> r == Response(400, Message("Invalid Project ID"))
    ensures isValidId(id) && !HasId(projects, id) ==> r == Response(404, Message("Project not found"))
    ensures r.status == 200 <==> isValidId(id) && HasId(projects, id)
    ensures r.status == 200 ==>
      && r.body.Documents?
      && (forall rec :: rec in r.body.records ==> rec.TeamMemberRecord? && rec.member in members && rec.member.fields.ofProject == id)
      && (forall d :: d in members && d.fields.ofProject == id ==> TeamMemberRecord(d) in r.body.records)
      && r.body.records == TeamMemberRecords(MembersOf(members, id))
  {
    if !isValidId(id) then Response(400, Message("Invalid Project ID"))
    else if !HasId(projects, id) then Response(404, Message("Project not found"))
    else
      var found := MembersOf(members, id);
      assert forall d :: d in found ==> TeamMemberRecord(d) in TeamMemberRecords(found) by {
        forall d | d in found ensures TeamMemberRecord(d) in TeamMemberRecords(found) {
          var i :| 0 <= i < |found| && found[i] == d;
          assert TeamMemberRecords(found)[i] == TeamMemberRecord(d);
        }
      }
      Response(200, Documents(TeamMemberRecords(found)))
  }

  /** `getTeamMemberById`. */
  function GetTeamMemberById(t: Table<TeamMember>, isValidId: Id -> bool, id: Id): (r: Response)
    ensures !isValidId(id) ==> r == Response(400, Message("Invalid TeamMember ID"))
    ensures isValidId(id) && !HasId(t, id) ==> r == Response(404, Message("TeamMember not found"))
    ensures r.status == 200 <==> isValidId(id) && HasId(t, id)
    ensures r.status == 200 ==>
      && r.body.Document? && r.body.record.TeamMemberRecord?
      && r.body.record.member in t && r.body.record.member.id == id
  {
    if !isValidId(id) then Response(400, Message("Invalid TeamMember ID"))
    else match FindById(t, id)
      case None => Response(404, Message("TeamMember not found"))
      case Some(d) => Response(200, Document(TeamMemberRecord(d)))
  }

  lemma CreateKeepsConsistent(t: Table<TeamMember>, isValidId: Id -> bool, body: Option<Body>, newId: Id, now: Time)
    requires Consistent(t, isValidId) && isValidId(newId) && !HasId(t, newId)
    ensures Consistent(CreateSpec(t, isValidId, body, newId, now).table, isValidId)
  {
    var out := CreateSpec(t, isValidId, body, newId, now);
    if out.table != t {
      var d := out.table[|t|];
      assert out.table == t + [d];
      InsertKeyed(t, d, isValidId);
    }
  }

  lemma UpdateKeepsConsistent(t: Table<TeamMember>, isValidId: Id -> bool, id: Id, body: Option<Body>, now: Time)
    requires Consistent(t, isValidId)
    ensures Consistent(UpdateSpec(t, isValidId, id, body, now).table, isValidId)
  {
    var out := UpdateSpec(t, isValidId, id, body, now);
    if out.table != t {
      UpdateKeyed(t, id, out.outcome.response.body.record.member, isValidId);
    }
  }

  lemma DeleteKeepsConsistent(t: Table<TeamMember>, isValidId: Id -> bool, id: Id)
    requires Consistent(t, isValidId)
    ensures Consistent(DeleteSpec(t, isValidId, id).table, isValidId)
  {
    DeleteKeyed(t, id, isValidId);
  }

  /** A created member is read back by its id and listed with its project's members. */
  lemma CreateThenRead(projects: Table<ProjectModel.Project>, t: Table<TeamMember>, isValidId: Id -> bool, body: Option<Body>, newId: Id, now: Time)
    requires Consistent(t, isValidId) && isValidId(newId) && !HasId(t, newId)
    requires CreateSpec(t, isValidId, body, newId, now).outcome.Sent?
    requires CreateSpec(t, isValidId, body, newId, now).outcome.response.status == 201
    requires HasId(projects, body.value["ofProject"].s)
    ensures var out := CreateSpec(t, isValidId, body, newId, now);
      var record := out.outcome.response.body.record;
      && GetTeamMemberById(out.table, isValidId, newId) == Response(200, Document(record))
      && record in GetProjectTeamMembers(projects, out.table, isValidId, body.value["ofProject"].s).body.records
  {
    var out := CreateSpec(t, isValidId, body, newId, now);
    var d := out.table[|t|];
    assert out.table == t + [d];
    InsertKeyed(t, d, isValidId);
  }

  /** With an empty body the update answers 200 and changes nothing but `updatedAt`. */
  lemma EmptyUpdateOnlyTouchesTimestamp(t: Table<TeamMember>, isValidId: Id -> bool, id: Id, now: Time)
    requires isValidId(id) && HasId(t, id)
    ensures var out := UpdateSpec(t, isValidId, id, None, now);
      && out.outcome.Sent? && out.outcome.response.status == 200
      && out.table == UpdateById(t, id, FindById(t, id).value.(updatedAt := now))
  {
  }

  /** Deleting the same member twice: the second attempt finds nothing. */
  lemma DeleteTwice(t: Table<TeamMember>, isValidId: Id -> bool, id: Id)
    requires Consistent(t, isValidId)
    requires DeleteSpec(t, isValidId, id).outcome == Reply(200, "TeamMember deleted successfully")
    ensures DeleteSpec(DeleteSpec(t, isValidId, id).table, isValidId, id).outcome == Reply(404, "TeamMember not found")
  {
  }

  /** Every error raised by a TeamMember handler reaches the client as a 500 carrying the error's own message. */
  lemma RaisedFaultsAre500(t: Table<TeamMember>, isValidId: Id -> bool, id: Id, body: Option<Body>, newId: Id, now: Time, url: string, userAgent: string)
    ensures var c := CreateSpec(t, isValidId, body, newId, now).outcome;
      c.Raised? ==> GlobalErrorHandler.Handle(c.fault, url, userAgent).1 == Response(500, StatusReport("error", c.fault.message))
    ensures var u := UpdateSpec(t, isValidId, id, body, now).outcome;
      u.Raised? ==> GlobalErrorHandler.Handle(u.fault, url, userAgent).1 == Response(500, StatusReport("error", u.fault.message))
  {
  }

  /** No path is unique: the same member can be created again, so a project may list it twice. */
  lemma RepeatedCreateIsAccepted(t: Table<TeamMember>, isValidId: Id -> bool, body: Option<Body>, id1: Id, id2: Id, now1: Time, now2: Time)
    requires CreateSpec(t, isValidId, body, id1, now1).outcome.Sent?
    requires CreateSpec(t, isValidId, body, id1, now1).outcome.response.status == 201
    ensures var t1 := CreateSpec(t, isValidId, body, id1, now1).table;
      var out := CreateSpec(t1, isValidId, body, id2, now2);
      && out.outcome.Sent? && out.outcome.response.status == 201
      && |out.table| == |t| + 2 && out.table[|t|].fields == out.table[|t| + 1].fields
  {
    var t1 := CreateSpec(t, isValidId, body, id1, now1).table;
    assert t1[|t|] == CreateSpec(t1, isValidId, body, id2, now2).table[|t|];
  }

  /** `createTeamMember` on the store. */
  method CreateTeamMember(db: Database, body: Option<Body>, newId: Id, now: Time) returns (r: Outcome)
    requires db.Valid() && db.isValidId(newId) && !HasId(db.teamMembers, newId)
    modifies db`teamMembers
    ensures db.Valid()
    ensures Step(r, db.teamMembers) == CreateSpec(old(db.teamMembers), db.isValidId, body, newId, now)
  {
    CreateKeepsConsistent(db.teamMembers, db.isValidId, body, newId, now);
    if NoBody(body) {
      return Reply(400, "Request body cannot be empty");
    }
    var b := body.value;
    if !Has(b, "name") || !Has(b, "ofProject") || !Has(b, "role") {
      return Reply(400, "Missing required fields");
    }
    var created := Build(b, db.isValidId);
    if created.Err? {
      return Raised(Thrown(created.error));
    }
    var d := Doc(newId, created.value, now, now);
    db.teamMembers := db.teamMembers + [d];
    r := Sent(Response(201, Envelope("Team member created successfully", "data", TeamMemberRecord(d))));
  }

  /** `deleteTeamMember` on the store. */
  method DeleteTeamMember(db: Database, id: Id) returns (r: Outcome)
    requires db.Valid()
    modifies db`teamMembers
    ensures db.Valid()
    ensures Step(r, db.teamMembers) == DeleteSpec(old(db.teamMembers), db.isValidId, id)
  {
    DeleteKeepsConsistent(db.teamMembers, db.isValidId, id);
    if !db.isValidId(id) {
      return Reply(400, "Invalid TeamMember ID");
    }
    if FindById(db.teamMembers, id).None? {
      return Reply(404, "TeamMember not found");
    }
    db.teamMembers := DeleteById(db.teamMembers, id);
    r := Reply(200, "TeamMember deleted successfully");
  }

  /** `updateTeamMember` on the store. */
  method UpdateTeamMember(db: Database, id: Id, body: Option<Body>, now: Time) returns (r: Outcome)
    requires db.Valid()
    modifies db`teamMembers
    ensures db.Valid()
    ensures Step(r, db.teamMembers) == UpdateSpec(old(db.teamMembers), db.isValidId, id, body, now)
  {
    UpdateKeepsConsistent(db.teamMembers, db.isValidId, id, body, now);
    if !db.isValidId(id) {
      return Reply(400, "Invalid TeamMember ID");
    }
    var found := FindById(db.teamMembers, id);
    if found.None? {
      return Reply(404, "TeamMember not found");
    }
    var applied := Apply(found.value.fields, UpdateOf(body), db.isValidId);
    if applied.Err? {
      return Raised(Thrown(applied.error));
    }
    var d := found.value.(fields := applied.value, updatedAt := now);
    db.teamMembers := UpdateById(db.teamMembers, id, d);
    r := Sent(Response(200, Envelope("TeamMember was updated", "data", TeamMemberRecord(d))));
  }
}

=== FILE: team_member_model.dfy ===
/**
  The TeamMember schema: `name`, `role` (one of designer, front-end,
  back-end, dev-ops, project-lead, other) and `ofProject` (an ObjectId
  referring to a Project), all required, with automatic timestamps. No path
  is unique.
*/
module TeamMemberModel {
  import opened Wrappers
  import opened Json
  import opened Tables
  import opened Schema

  datatype Role = Designer | FrontEnd | BackEnd | DevOps | ProjectLead | Other

  /** The `enum` list of the `role` path. */
  const RoleNames: seq<string> := ["designer", "front-end", "back-end", "dev-ops", "project-lead", "other"]

  function RoleName(r: Role): (text: string)
    ensures text in RoleNames
  {
    match r
    case Designer => "designer"
    case FrontEnd => "front-end"
    case BackEnd => "back-end"
    case DevOps => "dev-ops"
    case ProjectLead => "project-lead"
    case Other => "other"
  }

  function ParseRole(text: string): (r: Option<Role>)
    ensures r.Some? <==> text in RoleNames
    ensures r.Some? ==> RoleName(r.value) == text
  {
    if text == "designer" then Some(Designer)
    else if text == "front-end" then Some(FrontEnd)
    else if text == "back-end" then Some(BackEnd)
    else if text == "dev-ops" then Some(DevOps)
    else if text == "project-lead" then Some(ProjectLead)
    else if text == "other" then Some(Other)
    else None
  }

  datatype TeamMember = TeamMember(name: string, role: Role, ofProject: Id)

  /** What the validators guarantee of every stored team member. */
  ghost predicate Conforms(m: TeamMember, isValidId: Id -> bool)
  {
    m.name != "" && isValidId(m.ofProject)
  }

  /** What holds of the team members collection between requests. */
  ghost predicate Consistent(t: Table<TeamMember>, isValidId: Id -> bool)
  {
    && Keyed(t, isValidId)
    && forall i :: 0 <= i < |t| ==> Conforms(t[i].fields, isValidId)
  }

  /** The `role` path: required and a member of the enum list. */
  function RoleOf(v: Option<Value>): (r: Result<Role, SchemaError>)
    ensures r.Ok? <==> v.Some? && AsString(v.value).Some? && AsString(v.value).value in RoleNames
    ensures r.Ok? ==> AsString(v.value) == Some(RoleName(r.value))
  {
    var text :- EnumString("role", v, RoleNames, true);
    Ok(ParseRole(text).value)
  }

  /** `TeamMember.create(doc)`: keeps the schema paths of `doc`, cast and validated in schema order. */
  function Build(doc: Body, isValidId: Id -> bool): (r: Result<TeamMember, SchemaError>)
    ensures r.Ok? ==> Conforms(r.value, isValidId)
    ensures r.Ok? ==> "name" in doc && AsString(doc["name"]) == Some(r.value.name)
    ensures r.Ok? ==> "role" in doc && AsString(doc["role"]) == Some(RoleName(r.value.role))
    ensures r.Ok? ==> "ofProject" in doc && doc["ofProject"] == Str(r.value.ofProject)
    ensures (exists p :: p in ["name", "role", "ofProject"] && p !in doc) ==> r.Err?
    ensures r.Ok? <==>
      && "name" in doc && StringAccepted(doc["name"])
      && "role" in doc && EnumAccepted(doc["role"], RoleNames)
      && "ofProject" in doc && IdAccepted(doc["ofProject"], isValidId)
  {
    var name :- RequiredString("name", Lookup(doc, "name"));
    var role :- RoleOf(Lookup(doc, "role"));
    var ofProject :- RequiredObjectId("ofProject", Lookup(doc, "ofProject"), isValidId);
    Ok(TeamMember(name, role, ofProject))
  }

  /** `findOneAndUpdate(..., update, { runValidators: true })` on one team member. */
  function Apply(m: TeamMember, update: Body, isValidId: Id -> bool): (r: Result<TeamMember, SchemaError>)
    ensures r.Ok? && "name" in update ==> AsString(update["name"]) == Some(r.value.name)
    ensures r.Ok? && "name" !in update ==> r.value.name == m.name
    ensures r.Ok? && "role" in update ==> AsString(update["role"]) == Some(RoleName(r.value.role))
    ensures r.Ok? && "role" !in update ==> r.value.role == m.role
    ensures r.Ok? && "ofProject" in update ==> update["ofProject"] == Str(r.value.ofProject)
    ensures r.Ok? && "ofProject" !in update ==> r.value.ofProject == m.ofProject
    ensures r.Ok? && Conforms(m, isValidId) ==> Conforms(r.value, isValidId)
    ensures (forall k :: k in update ==> k !in ["name", "role", "ofProject"]) ==> r == Ok(m)
    ensures r.Ok? <==>
      && ("name" in update ==> StringAccepted(update["name"]))
      && ("role" in update ==> EnumAccepted(update["role"], RoleNames))
      && ("ofProject" in update ==> IdAccepted(update["ofProject"], isValidId))
  {
    var name :- if "name" in update then RequiredString("name", Some(update["name"])) else Ok(m.name);
    var role :- if "role" in update then RoleOf(Some(update["role"])) else Ok(m.role);
    var ofProject :- if "ofProject" in update then RequiredObjectId("ofProject", Some(update["ofProject"]), isValidId) else Ok(m.ofProject);
    Ok(TeamMember(name, role, ofProject))
  }
}

=== FILE: wrappers.dfy ===
/** Optional values and results that carry an error. */
module Wrappers {

  datatype Option<+T> = None | Some(value: T)

  /** A value or the error that stopped its computation; usable with `:-`. */
  datatype Result<+T, +E> = Ok(value: T) | Err(error: E) {

    predicate IsFailure() {
      Err?
    }

    function PropagateFailure<U>(): Result<U, E>
      requires Err?
    {
      Err(error)
    }

    function Extract(): T
      requires Ok?
    {
      value
    }
  }
}
